=== FILE: README.md ===
# moz-mockmyid-api token construction, in Dafny

This project models the token construction of the mock BrowserID identity
provider for `mockmyid.com`. It also proves properties of that model.

- **Certificates.** The provider issues a certificate. A certificate is a web
  token binding an email address in the `@mockmyid.com` domain to the
  subject's DSA public key, signed with the fixed mockmyid.com key.
- **Assertions.** It also issues an assertion. An assertion is a web token
  binding an audience to a validity window, signed with the subject's own key.
- **Bundle.** The two tokens are joined as `certificate~assertion`.

A web token is `header.payload.signature`:

- the header and payload are JSON documents;
- each segment is base64 in the URL-safe, padded alphabet;
- the signature is DSA's `(r, s)` written as two right-aligned, zero-padded
  20-byte big-endian halves.

Modules, one per file:

| module | file | models |
|---|---|---|
| `Wrappers` | wrappers.dfy | `Option`, and `Result` for Go's `(value, error)` returns |
| `Bytes` | bytes.dfy | bytes as `0..255`; `big.Int.Bytes()` (minimal big-endian) and `BitLen()` |
| `Numerals` | numerals.dfy | `%x` and `%d` formatting; `stringToBig`, i.e. `SetString(s, 16)` |
| `Text` | text.dfy | `strings.HasSuffix`; joining and splitting on a one-character separator |
| `Utf8` | utf8.dfy | the UTF-8 byte form of the JSON text |
| `Base64` | base64.dfy | `base64.URLEncoding.EncodeToString`, plus its inverse, a decoder |
| `Json` | json.dfy | `json.Marshal` of the payload structs, plus its inverse, a parser |
| `WebToken` | webtoken.dfy | webtoken.go: payload records, header tag, signature buffer, token, bundle |
| `IssuerKey` | issuer_key.dfy | `MOCKMYID_KEY` and the facts about its size |
| `MockMyId` | mockmyid.dfy | mockmyid.go: constants, username normalization, the three issuing functions |

Cryptography is not modelled.

- SHA-1 and `dsa.Sign` arrive together as the parameter `crypto: Crypto`.
- They are assumed to obey DSA's bound on the signature halves:
  `SignsBelowOrder` says both halves are below the key's `Q`. Being a
  function, `crypto.sign` is also deterministic (see "## Left out").
- From that bound, the model proves what the signature buffer demands of its
  inputs (`SignatureFits`) for the mockmyid.com key.

The current instant is the parameter `now`, in nanoseconds since the epoch.
Instants and durations are integers counting nanoseconds. Go's truncating
`UnixNano() / int64(time.Millisecond)` is written out in `WebToken.UnixMillis`.

The decoders are the inverses the round-trip properties are stated with;
they are not code from the repository:

- `Base64.Decode`, `Utf8.Decode` and `Json.Parse`;
- `Text.Split`;
- `WebToken.ParseSignature`, `DecodeToken` and `DecodeBundle`.

They state what a relying party's verifier reads back from what the issuer
writes. Each decoder is proved to invert its encoder on everything the
encoder produces.

Some facts about the code that a reader might not expect:

- Segments are padded base64 (`base64.URLEncoding`), not unpadded.
- The certificate header tag is `"DS"` followed by the byte length of the
  signing key's modulus `P`, `(P.BitLen()+7)/8`. It is not the signature half
  length.
- Assertions always carry `"DS128"`.
- No `expiresAt > issuedAt` check exists. A negative or zero duration is
  accepted and the model accepts it too.

## Model

| member | source | states |
|---|---|---|
| WebToken.NewCertificatePublicKey | webtoken.go:33-41 | algorithm is `"DS"`; each of `y`, `p`, `q`, `g` is a canonical lower-case hex numeral (no sign, no upper case, no leading zero) and `stringToBig` of it reads back the key's number |
| WebToken.PublicKeyTextUnique | webtoken.go:36 | any canonical hex numeral of the public number `Y` is exactly the certificate's `y` text, so the `%x` form is pinned down character by character |
| WebToken.PublicKeyOmitsPrivate | webtoken.go:25-41 | keys with the same public half give the same public-key record, so the private exponent `X` cannot appear in it |
| WebToken.NewCertificatePayload | webtoken.go:52-60 | email and issuer are copied; `aud` is left empty; the public key is the public-key record; `iat` and `exp` are the millisecond forms of the two instants |
| WebToken.NewAssertionPayload | webtoken.go:126-133 | issuer and audience are copied; `iat` and `exp` are the millisecond forms of the two instants |
| WebToken.UnixMillis | webtoken.go:57-58 | truncating division by 10^6: for a non-negative instant, the largest whole millisecond count not above it; for a negative one, the smallest not below it |
| WebToken.MillisShift | webtoken.go:129-130 | shifting a non-negative instant by a whole number of milliseconds, staying non-negative, shifts its millisecond timestamp by exactly that number |
| WebToken.PayloadWindow | webtoken.go:57-58 | a certificate or assertion made for `[t, t + d]` with `d` whole milliseconds has `exp - iat == d / 10^6` |
| WebToken.CertificateFieldOrder | webtoken.go:43-50 | the certificate serializes `principal, public-key, iss, iat, aud, exp`; its public key serializes `algorithm, y, p, q, g` |
| WebToken.AssertionFieldOrder | webtoken.go:119-124 | the assertion serializes `iss, iat, exp, aud` |
| WebToken.CertificateAlgorithm | webtoken.go:68 | the tag starts with `"DS"`, and the rest is a canonical decimal numeral (no sign, no leading zero) that reads back as `(P.BitLen()+7)/8` |
| WebToken.CertificateAlgorithmUnique | webtoken.go:68 | the tag equals `"DS"` followed by any canonical decimal numeral of the modulus byte length: the literal text a verifier compares is fixed |
| WebToken.Modulus1024Tag | webtoken.go:137 | for a 1024-bit modulus the computed certificate tag equals the `"DS128"` that assertions hard-code |
| WebToken.OrderBoundFits | webtoken.go:96-100 | if every signature half is below `Q` and `Q <= 256^20`, every half's `Bytes()` is at most 20 bytes long, as the buffer copy needs |
| WebToken.Place | webtoken.go:96-100 | the buffer is 40 bytes; each half is right-aligned in its 20 bytes with zeros before it |
| WebToken.SignatureBytes | webtoken.go:96-100 | for halves of at most 20 bytes: 40 bytes long; bytes 0..19 read big-endian are `r`, bytes 20..39 are `s`; each half's `Bytes()` ends its 20-byte slot and every byte before it is zero |
| WebToken.SignatureRoundTrip | webtoken.go:165-169 | reading the two 20-byte halves back out of the buffer gives `(r, s)` |
| WebToken.EncodeToken | webtoken.go:83-106 | the token fails exactly when the signer fails, with the signer's error |
| WebToken.CreateCertificate | webtoken.go:112-115 | the certificate fails exactly when signing its message (the computed tag's header and the certificate payload) fails, with the signer's error |
| WebToken.SegmentRoundTrip | webtoken.go:69-80 | base64 of the UTF-8 JSON of a value decodes back to the value |
| WebToken.TokenRoundTrip | webtoken.go:83-106 | a token has exactly two dots; decoding it gives the header with the given tag, the payload, and a signature the signer made with the signing key over the digest of the first two segments |
| WebToken.TokenHasNoTilde | webtoken.go:104-106 | no token contains the bundle separator `~` |
| WebToken.CertificateRoundTrip | webtoken.go:112-115 | a certificate has no `~`; it decodes to the tag computed from the signing key, the certificate payload, and a signature made with the signing key |
| WebToken.AssertionRoundTrip | webtoken.go:135-179 | an assertion has no `~`; it decodes to the `"DS128"` header, its payload, and a signature made with the signing key |
| WebToken.CreateAssertion | webtoken.go:181-191 | fails exactly when the assertion fails, with its error; on success the result starts with the certificate, followed by `~` |
| WebToken.BundleSplit | webtoken.go:190 | splitting a bundle around a `~`-free certificate on `~` gives exactly the certificate and the assertion; it has one `~` |
| WebToken.BundleRoundTrip | webtoken.go:181-191 | decoding the bundle gives the certificate's own decoding, and an assertion with the `"DS128"` header and the assertion payload, signed with the signing key |
| Base64.Encode | webtoken.go:73 | the output uses only the URL-safe alphabet and `=` |
| Base64.EncodeLength | webtoken.go:73 | the output has four characters for every started group of three input bytes, as `URLEncoding.EncodedLen` |
| Base64.EncodeCanonical | webtoken.go:73 | the encoding is canonical in the sense of section 3.5 of RFC 4648: the pad bits of the last symbol before `==` or `=` are zero |
| Base64.CanonicalRoundTrip | webtoken.go:73 | any decodable text with zero pad bits is the encoding of what it decodes to, so each byte string has exactly one canonical spelling and it is `Encode`'s |
| Base64.RoundTrip | webtoken.go:73 | decoding the encoding of any byte string gives it back |
| Base64.NoSeparators | webtoken.go:104-106 | encoded text contains neither `.` nor `~` |
| Utf8.RoundTrip | webtoken.go:87 | decoding the UTF-8 bytes of any string gives it back |
| Json.RoundTrip | webtoken.go:69 | parsing the serialization of any value gives back the value, escapes included |
| Json.EscapeRoundTrip | webtoken.go:76 | an escaped string body followed by a closing quote reads back as the string and the text after the quote |
| Json.IntRoundTrip | webtoken.go:76 | the decimal form of any `int64` timestamp, negative ones included, parses back to the number |
| Numerals.Numeral | webtoken.go:36-39 | the digits form a canonical numeral: no upper-case letter, a leading `0` only for zero, and their value is the number |
| Numerals.CanonicalIsNumeral | webtoken.go:36-39 | every canonical numeral is the one `%x`/`%d` writes for its value |
| Numerals.CanonicalUnique | webtoken.go:36-39 | two canonical numerals of the same value are the same text |
| Numerals.Hex | webtoken.go:36-39 | `%x` writes the canonical lower-case hex numeral of the number |
| Numerals.Decimal | webtoken.go:68 | `%d` writes the canonical decimal numeral of the number, after a `-` exactly when it is negative |
| Numerals.HexRoundTrip | mockmyid.go:48-52 | `stringToBig` of the `%x` form of `n` is `n` |
| Numerals.UnsignedHex | mockmyid.go:48-52 | `stringToBig` of unsigned hex digits is the number they denote |
| Numerals.DecimalRoundTrip | webtoken.go:68 | the `%d` text of any integer reads back as that integer |
| Numerals.ParseSigned | mockmyid.go:48-52 | parsing succeeds exactly for an optional sign followed by one or more digits, and the value is the digits' value, negated after a `-` |
| Bytes.ToBytes | webtoken.go:97-98 | `Bytes()` denotes `n`; it is empty exactly for zero and otherwise has no leading zero byte |
| Bytes.ToBytesLength | webtoken.go:97-100 | `len(n.Bytes()) <= k` exactly when `n < 256^k` |
| Bytes.BitLenBounds | webtoken.go:68 | `BitLen(n)` is the `k` with `2^(k-1) <= n < 2^k` |
| Text.SplitJoin | webtoken.go:106 | joining `.`-free segments with `.` and splitting again gives the segments back |
| Text.CountJoin | webtoken.go:106 | a join of `n` separator-free parts has `n - 1` separators |
| Text.SplitTwo | webtoken.go:190 | two `~`-free tokens joined by `~` split back into the two tokens |
| MockMyId.NormalizeUsername | mockmyid.go:22-24 | the email ends in `@mockmyid.com` and starts with the username; it equals the username exactly when the username already has the suffix, and otherwise it is the username with exactly `@mockmyid.com` appended |
| MockMyId.NormalizeIdempotent | mockmyid.go:22-24 | normalizing twice is normalizing once |
| MockMyId.IssueCertificate | mockmyid.go:21-28 | issuance fails exactly when signing the certificate message fails, with the signer's error; on success the certificate has no `~`; it decodes to the tag of the signing key, the payload for the normalized email with issuer `@mockmyid.com` and expiry `issuedAt + duration`, and a signature made with the signing key |
| MockMyId.CreateMockMyIdCertificate | mockmyid.go:21-28 | as above (fails exactly when signing fails, with that error), with the `"DS128"` header and a signature made with `MOCKMYID_KEY`, not the subject key |
| MockMyId.IssueAssertion | mockmyid.go:30-37 | a certificate error is returned as it is and no assertion is made; otherwise an assertion error is returned; success exactly when both succeed |
| MockMyId.IssuedBundleRoundTrip | mockmyid.go:30-37 | the bundle decodes to the certificate's decoding and to an assertion issued by `127.0.0.1` for the audience, expiring at `assertionIssuedAt + assertionDuration`, signed with the subject key |
| MockMyId.MockMyIdBundleRoundTrip | mockmyid.go:30-37 | with `MOCKMYID_KEY`: both tokens carry `"DS128"`; the certificate is signed with `MOCKMYID_KEY` and the assertion with the subject key |
| MockMyId.ShortLivedWindows | mockmyid.go:14-19 | certificate `iat` is `now` minus 30 000 ms; assertion `iat` is 15 000 ms later; both windows are 3 600 000 ms |
| MockMyId.ShortLivedBundle | mockmyid.go:39-42 | the short-lived bundle decodes to the signed certificate and assertion, with those issuers, that audience, the normalized email, and those windows |
| IssuerKey.MockMyIdKey | mockmyid.go:54-66 | each of `P`, `Q`, `G`, `Y`, `X` is `stringToBig` of its hex text |
| IssuerKey.MockMyIdModulusSize | mockmyid.go:59 | `P` has 1024 bits |
| IssuerKey.MockMyIdOrderSize | mockmyid.go:60 | `2^159 <= Q < 2^160` |
| IssuerKey.MockMyIdCertificateTag | mockmyid.go:59 | certificates signed with the key are tagged `"DS128"` |
| IssuerKey.MockMyIdSignaturesFit | mockmyid.go:60 | every signature made with the key fits the 20-byte halves of the buffer |

## Left out

- SHA-1 and `dsa.Sign` (webtoken.go:86-91, 155-160) are the abstract parameter `Crypto`. The properties assumed are that both halves of a signature are below `Q` (`SignsBelowOrder`), and the determinism described next.
- `dsa.Sign` draws a fresh nonce from `rand.Reader` on every call (webtoken.go:91, 160). The model folds that randomness in: `crypto.sign(key, digest)` is a fixed function of key and digest, so signing the same digest twice gives the same `(r, s)`, or the same failure. Wherever a contract speaks of "the signer's signature", it means the value that signing call returned. Clauses that compare a token with a recomputed signature or certificate hold only under this determinism. These are the `crypto.sign(...) == Success(d.signature)` clause of WebToken.TokenRoundTrip, the predicate `SignedToken` in the certificate, assertion and bundle round trips, and the recomputed `IssueCertificate` in MockMyId.IssueAssertion and MockMyId.IssuedBundleRoundTrip. Two real Go calls would produce different signatures.
- `rand.Reader` and the random key generator in main.go are left out. The random source only feeds `dsa.Sign`, which is abstract.
- `time.Now()` (mockmyid.go:40) becomes the parameter `now`.
- WebToken.AddDuration models `Time.Add` as unbounded addition on nanoseconds. The model leaves out `int64` overflow of `UnixNano`, and the wrap-around of instants far outside the `int64` range, because no realistic instant reaches them.
- WebToken.MillisShift, WebToken.PayloadWindow and MockMyId.ShortLivedWindows: these are stated only for non-negative instants, where truncating and flooring division agree. `UnixMillis` itself is defined for negative instants as well.
- Invalid UTF-8 in Go strings is left out. Dafny strings hold Unicode scalar values only, so `json.Marshal`'s replacement of invalid bytes never arises.
- `json.Marshal` errors cannot happen for these structs, so the model has none. Only the signer can fail.
- The escaping in `Json.EscapeChar` matches `encoding/json` releases that write a tab as `\t` and are older than Go 1.22:
  - `\n`, `\r`, `\t`, `\"` and `\\`;
  - `\u00XX` for other control characters and for `<`, `>` and `&`;
  - `\u2028` and `\u2029`.

  Go 1.22 and later write `\b` and `\f` for backspace and form feed. Releases older than the `\t` form write a tab as `\u0009`. Payload strings are emails, hex numbers, issuers and audiences, where neither difference arises in practice.
- WebToken.EncodeToken: requires `SignatureFits`, that both halves' `Bytes()` fit in 20 bytes for every signature the signer makes with the key, whatever the digest. This excludes two behaviours of the copies at webtoken.go:99-100, and the model represents neither:
  - an `r` over 20 bytes makes the slice `signatureData[20-len(rb):20]` panic (so does an `s` over 40 bytes);
  - an `s` of 21 to 40 bytes does not panic. The second copy then starts inside `r`'s slot and overwrites its last bytes, and Go returns a token with a corrupted signature.

  The requirement covers every digest, not just the one being signed. For keys with a 160-bit `Q` (L1024N160) neither case can arise, since every half is below `Q` and fits in 20 bytes. Every caller carries the same requirement. For the mockmyid.com key it is proved from DSA's bound (`IssuerKey.MockMyIdSignaturesFit`).
- Json.Serialize and WebToken.Marshal (`json.Marshal`, webtoken.go:69, 76) carry no contract of their own. Json.RoundTrip, WebToken.SegmentRoundTrip and the field-order lemmas WebToken.CertificateFieldOrder and WebToken.AssertionFieldOrder state what they write.
- Text.EndsWith is the predicate `strings.HasSuffix` (mockmyid.go:22) and carries no contract of its own. MockMyId.NormalizeUsername's contract is stated with it.
- Numerals.StringToBig carries no contract of its own: it is `ParseSigned` at base 16, and Numerals.ParseSigned, Numerals.HexRoundTrip and Numerals.UnsignedHex state what it reads.
- In Go, `Encode` and `CreateAssertion` return `""` alongside an error. The model returns `Failure(error)` and no text.
- EncodeCertificate and EncodeAssertion carry no contracts of their own. WebToken.CertificateRoundTrip, WebToken.AssertionRoundTrip and WebToken.TokenRoundTrip state what they produce.
- MockMyId.CreateMockMyIdAssertion carries no contract of its own. MockMyId.MockMyIdBundleRoundTrip states what it produces.
- MockMyId.CreateShortLivedMockMyIdAssertion carries no contract of its own. MockMyId.ShortLivedBundle states what it produces.
- HTTP handling, flags, logging and the response JSON in main.go are transport, outside the token construction.
- main_test.go calls handlers that are not in the files modelled. mockmyid_test.go calls a remote verifier. Neither is modelled.
- `math/big` internals are left out. Integers are `nat`; only `Bytes()`, `BitLen()`, `%x` and `SetString(s, 16)` are modelled.
- Go's `SetString` leaves its receiver unspecified on failure. `stringToBig` ignores that case. The model returns `None` for text that is not a hex numeral; every call in mockmyid.go passes valid hex.

=== FILE: base64.dfy ===
/** `base64.URLEncoding`: the URL- and filename-safe alphabet of section 5 of
    RFC 4648, with `=` padding, as used for every token segment. */
module Base64 {
  import opened Wrappers
  import opened Bytes

  /** The symbol for the 6-bit value `i`: `A`-`Z`, `a`-`z`, `0`-`9`, `-`, `_`. */
  function Symbol(i: nat): char
    requires i < 64
  {
    if i < 26 then ('A' as int + i) as char
    else if i < 52 then ('a' as int + (i - 26)) as char
    else if i < 62 then ('0' as int + (i - 52)) as char
    else if i == 62 then '-'
    else '_'
  }

  predicate IsSymbol(c: char) {
    'A' <= c <= 'Z' || 'a' <= c <= 'z' || '0' <= c <= '9' || c == '-' || c == '_'
  }

  function SymbolValue(c: char): (i: nat)
    requires IsSymbol(c)
    ensures i < 64
  {
    if 'A' <= c <= 'Z' then c as int - 'A' as int
    else if 'a' <= c <= 'z' then c as int - 'a' as int + 26
    else if '0' <= c <= '9' then c as int - '0' as int + 52
    else if c == '-' then 62
    else 63
  }

  lemma SymbolRoundTrip(i: nat)
    requires i < 64
    ensures IsSymbol(Symbol(i)) && SymbolValue(Symbol(i)) == i
  {
  }

  lemma ValueRoundTrip(c: char)
    requires IsSymbol(c)
    ensures Symbol(SymbolValue(c)) == c
  {
  }

  /** A character that can appear in encoded output. */
  predicate IsEncodedChar(c: char) {
    IsSymbol(c) || c == '='
  }

  /** The canonical encoding of section 3.5 of RFC 4648: the bits of the last
      symbol before the padding that carry no input are zero, four of them
      before `==` and two before a single `=`. */
  predicate CanonicalPadding(s: string) {
    |s| >= 4 ==> PadBitsZero(s[|s| - 3], s[|s| - 2], s[|s| - 1])
  }

  /** The pad-bit condition on the last three characters of a group. */
  predicate PadBitsZero(c1: char, c2: char, c3: char) {
    && (IsSymbol(c1) && c2 == '=' && c3 == '=' ==> SymbolValue(c1) % 16 == 0)
    && (IsSymbol(c2) && c3 == '=' ==> SymbolValue(c2) % 4 == 0)
  }

  /** Three bytes as four symbols. */
  function EncodeGroup(a: byte, b: byte, c: byte): (s: string)
    ensures |s| == 4 && forall i :: 0 <= i < 4 ==> IsEncodedChar(s[i])
  {
    [Symbol(a / 4), Symbol((a % 4) * 16 + b / 16), Symbol((b % 16) * 4 + c / 64), Symbol(c % 64)]
  }

  /** A final single byte: two symbols and two `=`. */
  function EncodeOne(a: byte): (s: string)
    ensures |s| == 4 && forall i :: 0 <= i < 4 ==> IsEncodedChar(s[i])
  {
    [Symbol(a / 4), Symbol((a % 4) * 16), '=', '=']
  }

  /** A final pair of bytes: three symbols and one `=`. */
  function EncodeTwo(a: byte, b: byte): (s: string)
    ensures |s| == 4 && forall i :: 0 <= i < 4 ==> IsEncodedChar(s[i])
  {
    [Symbol(a / 4), Symbol((a % 4) * 16 + b / 16), Symbol((b % 16) * 4), '=']
  }

  /** `URLEncoding.EncodeToString`: each group of three bytes becomes four
      symbols; a final group of one or two bytes is padded with `=` to four. */
  function Encode(bs: seq<byte>): (s: string)
    ensures forall i :: 0 <= i < |s| ==> IsEncodedChar(s[i])
    decreases |bs|
  {
    if |bs| == 0 then []
    else if |bs| == 1 then EncodeOne(bs[0])
    else if |bs| == 2 then EncodeTwo(bs[0], bs[1])
    else
      var head := EncodeGroup(bs[0], bs[1], bs[2]);
      var rest := Encode(bs[3..]);
      assert forall i :: 4 <= i < |head + rest| ==> (head + rest)[i] == rest[i - 4];
      head + rest
  }

  /** Four characters for every started group of three bytes (`EncodedLen`). */
  lemma {:induction false} EncodeLength(bs: seq<byte>)
    ensures |Encode(bs)| == 4 * ((|bs| + 2) / 3)
    decreases |bs|
  {
    if |bs| > 2 {
      EncodeStep(bs);
      EncodeLength(bs[3..]);
      GroupCount(|bs|);
    }
  }

  lemma GroupCount(n: nat)
    requires n >= 3
    ensures 4 * ((n + 2) / 3) == 4 + 4 * ((n - 3 + 2) / 3)
  {
  }

  /** `Encode` writes the canonical padding: every pad bit is zero. */
  lemma {:induction false} EncodeCanonical(bs: seq<byte>)
    ensures CanonicalPadding(Encode(bs))
    decreases |bs|
  {
    if |bs| == 1 {
      OnePadBits(bs[0]);
    } else if |bs| == 2 {
      TwoPadBits(bs[0], bs[1]);
    } else if |bs| > 2 {
      EncodeStep(bs);
      EncodeCanonical(bs[3..]);
      GroupAllSymbols(bs[0], bs[1], bs[2]);
      PaddingOfAppend(EncodeGroup(bs[0], bs[1], bs[2]), Encode(bs[3..]));
    }
  }

  /** A final single byte leaves its second symbol's low four bits zero. */
  lemma OnePadBits(a: byte)
    ensures CanonicalPadding(EncodeOne(a))
  {
    SymbolRoundTrip((a % 4) * 16);
  }

  /** A final pair of bytes leaves its third symbol's low two bits zero. */
  lemma TwoPadBits(a: byte, b: byte)
    ensures CanonicalPadding(EncodeTwo(a, b))
  {
    SymbolRoundTrip((a % 4) * 16 + b / 16);
    SymbolRoundTrip((b % 16) * 4);
  }

  lemma GroupAllSymbols(a: byte, b: byte, c: byte)
    ensures forall i :: 0 <= i < 4 ==> IsSymbol(EncodeGroup(a, b, c)[i])
  {
    SymbolRoundTrip(a / 4);
    SymbolRoundTrip((a % 4) * 16 + b / 16);
    SymbolRoundTrip((b % 16) * 4 + c / 64);
    SymbolRoundTrip(c % 64);
  }

  /** A full group in front keeps the padding of what follows canonical. */
  lemma PaddingOfAppend(head: string, rest: string)
    requires |head| == 4 && forall i :: 0 <= i < 4 ==> IsSymbol(head[i])
    requires CanonicalPadding(rest) && (rest == [] || |rest| >= 4)
    ensures CanonicalPadding(head + rest)
  {
    var s := head + rest;
    if |rest| == 0 {
      assert s == head;
    } else {
      assert s[|s| - 3] == rest[|rest| - 3] && s[|s| - 2] == rest[|rest| - 2] && s[|s| - 1] == rest[|rest| - 1];
    }
  }

  /** Decoding, the inverse a token verifier applies: `None` when `s` is not a
      sequence of four-character groups of the alphabet with trailing padding. */
  function Decode(s: string): Option<seq<byte>>
    decreases |s|
  {
    if s == [] then Some([])
    else if |s| < 4 || !IsSymbol(s[0]) || !IsSymbol(s[1]) then None
    else
      var c0, c1 := SymbolValue(s[0]), SymbolValue(s[1]);
      var b0: byte := c0 * 4 + c1 / 16;
      if |s| == 4 && s[2] == '=' && s[3] == '=' then Some([b0])
      else if !IsSymbol(s[2]) then None
      else
        var c2 := SymbolValue(s[2]);
        var b1: byte := (c1 % 16) * 16 + c2 / 4;
        if |s| == 4 && s[3] == '=' then Some([b0, b1])
        else if !IsSymbol(s[3]) then None
        else
          var c3 := SymbolValue(s[3]);
          var b2: byte := (c2 % 4) * 64 + c3;
          match Decode(s[4..])
          case None => None
          case Some(rest) => Some([b0, b1, b2] + rest)
  }

  /** The bit regrouping of one group undoes itself. */
  lemma GroupArithmetic(a: byte, b: byte, c: byte)
    ensures (a / 4) * 4 + ((a % 4) * 16 + b / 16) / 16 == a
    ensures (((a % 4) * 16 + b / 16) % 16) * 16 + ((b % 16) * 4 + c / 64) / 4 == b
    ensures (((b % 16) * 4 + c / 64) % 4) * 64 + c % 64 == c
  {
  }

  lemma OneArithmetic(a: byte)
    ensures (a / 4) * 4 + ((a % 4) * 16) / 16 == a
  {
  }

  lemma TwoArithmetic(a: byte, b: byte)
    ensures (a / 4) * 4 + ((a % 4) * 16 + b / 16) / 16 == a
    ensures (((a % 4) * 16 + b / 16) % 16) * 16 + ((b % 16) * 4) / 4 == b
  {
  }

  lemma RoundTripOne(a: byte)
    ensures Decode(EncodeOne(a)) == Some([a])
  {
    var s := EncodeOne(a);
    var c0, c1 := a / 4, (a % 4) * 16;
    assert s[0] == Symbol(c0) && s[1] == Symbol(c1) && s[2] == '=' && s[3] == '=';
    SymbolRoundTrip(c0);
    SymbolRoundTrip(c1);
    OneArithmetic(a);
  }

  lemma RoundTripTwo(a: byte, b: byte)
    ensures Decode(EncodeTwo(a, b)) == Some([a, b])
  {
    var s := EncodeTwo(a, b);
    var c0, c1, c2 := a / 4, (a % 4) * 16 + b / 16, (b % 16) * 4;
    assert s[0] == Symbol(c0) && s[1] == Symbol(c1) && s[2] == Symbol(c2) && s[3] == '=';
    SymbolRoundTrip(c0);
    SymbolRoundTrip(c1);
    SymbolRoundTrip(c2);
    TwoArithmetic(a, b);
  }

  /** Four symbols followed by text that decodes to `tail` decode to the
      three bytes the symbols' 24 bits spell, then `tail`. */
  lemma DecodeSymbols(s: string, c0: nat, c1: nat, c2: nat, c3: nat, tail: seq<byte>)
    requires c0 < 64 && c1 < 64 && c2 < 64 && c3 < 64
    requires |s| >= 4 && s[0] == Symbol(c0) && s[1] == Symbol(c1) && s[2] == Symbol(c2) && s[3] == Symbol(c3)
    requires Decode(s[4..]) == Some(tail)
    ensures Decode(s) == Some(Regroup(c0, c1, c2, c3) + tail)
  {
    SymbolRoundTrip(c0);
    SymbolRoundTrip(c1);
    SymbolRoundTrip(c2);
    SymbolRoundTrip(c3);
  }

  /** The three bytes four 6-bit values spell. */
  function Regroup(c0: nat, c1: nat, c2: nat, c3: nat): (g: seq<byte>)
    requires c0 < 64 && c1 < 64 && c2 < 64 && c3 < 64
    ensures |g| == 3
  {
    [c0 * 4 + c1 / 16, (c1 % 16) * 16 + c2 / 4, (c2 % 4) * 64 + c3]
  }

  /** The four symbols of a group decode to the group's three bytes. */
  lemma DecodeGroup(s: string, a: byte, b: byte, c: byte, tail: seq<byte>)
    requires |s| >= 4 && s[..4] == EncodeGroup(a, b, c) && Decode(s[4..]) == Some(tail)
    ensures Decode(s) == Some([a, b, c] + tail)
  {
    var c0, c1, c2, c3 := a / 4, (a % 4) * 16 + b / 16, (b % 16) * 4 + c / 64, c % 64;
    GroupChars(s, a, b, c);
    DecodeSymbols(s, c0, c1, c2, c3, tail);
    GroupBytes(a, b, c);
  }

  /** The characters of a group are the symbols of its 6-bit values. */
  lemma GroupChars(s: string, a: byte, b: byte, c: byte)
    requires |s| >= 4 && s[..4] == EncodeGroup(a, b, c)
    ensures s[0] == Symbol(a / 4) && s[1] == Symbol((a % 4) * 16 + b / 16)
    ensures s[2] == Symbol((b % 16) * 4 + c / 64) && s[3] == Symbol(c % 64)
  {
    assert s[0] == s[..4][0] && s[1] == s[..4][1] && s[2] == s[..4][2] && s[3] == s[..4][3];
  }

  lemma GroupBytes(a: byte, b: byte, c: byte)
    ensures Regroup(a / 4, (a % 4) * 16 + b / 16, (b % 16) * 4 + c / 64, c % 64) == [a, b, c]
  {
    GroupArithmetic(a, b, c);
  }

  /** A full group followed by text that decodes to `tail` decodes to the
      group's three bytes and then `tail`. */
  lemma RoundTripGroup(bs: seq<byte>, rest: string, tail: seq<byte>)
    requires |bs| >= 3 && Decode(rest) == Some(tail)
    ensures Decode(EncodeGroup(bs[0], bs[1], bs[2]) + rest) == Some(bs[..3] + tail)
  {
    var g := EncodeGroup(bs[0], bs[1], bs[2]);
    var s := g + rest;
    assert s[..4] == g && s[4..] == rest;
    DecodeGroup(s, bs[0], bs[1], bs[2], tail);
    assert bs[..3] == [bs[0], bs[1], bs[2]];
  }

  /** Inputs of one or two bytes round-trip through their padded group. */
  lemma RoundTripShort(bs: seq<byte>)
    requires 1 <= |bs| <= 2
    ensures Decode(Encode(bs)) == Some(bs)
  {
    if |bs| == 1 {
      RoundTripOne(bs[0]);
      assert bs == [bs[0]];
    } else {
      RoundTripTwo(bs[0], bs[1]);
      assert bs == [bs[0], bs[1]];
    }
  }

  lemma EncodeStep(bs: seq<byte>)
    requires |bs| > 2
    ensures Encode(bs) == EncodeGroup(bs[0], bs[1], bs[2]) + Encode(bs[3..])
  {
  }

  /** A leading full group round-trips whenever the rest does. */
  lemma RoundTripStep(bs: seq<byte>)
    requires |bs| > 2 && Decode(Encode(bs[3..])) == Some(bs[3..])
    ensures Decode(Encode(bs)) == Some(bs)
  {
    EncodeStep(bs);
    RoundTripGroup(bs, Encode(bs[3..]), bs[3..]);
    assert bs[..3] + bs[3..] == bs;
  }

  /** Decoding the encoding of any byte string gives it back. */
  lemma {:induction false} RoundTrip(bs: seq<byte>)
    ensures Decode(Encode(bs)) == Some(bs)
    decreases |bs|
  {
    if 1 <= |bs| <= 2 {
      RoundTripShort(bs);
    } else if |bs| > 2 {
      RoundTrip(bs[3..]);
      RoundTripStep(bs);
    }
  }

  /** Decodable text with canonical padding is the encoding of what it
      decodes to: `Encode` is the only canonical spelling of each byte string. */
  lemma {:induction false} CanonicalRoundTrip(s: string)
    requires Decode(s).Some? && CanonicalPadding(s)
    ensures Encode(Decode(s).value) == s
    decreases |s|
  {
    if s == [] {
    } else if |s| == 4 && s[3] == '=' {
      CanonicalLast(s);
    } else {
      CanonicalTail(s);
      CanonicalRoundTrip(s[4..]);
      CanonicalGroup(s);
    }
  }

  /** A padded last group with canonical pad bits is the encoding of its bytes. */
  lemma CanonicalLast(s: string)
    requires Decode(s).Some? && CanonicalPadding(s) && |s| == 4 && s[3] == '='
    ensures Encode(Decode(s).value) == s
  {
    if s[2] == '=' {
      CanonicalOne(s);
    } else {
      CanonicalTwo(s);
    }
  }

  /** `c0 c1 = =` with the low four bits of `c1` zero is `EncodeOne` of its byte. */
  lemma CanonicalOne(s: string)
    requires Decode(s).Some? && CanonicalPadding(s) && |s| == 4 && s[2] == '=' && s[3] == '='
    ensures Encode(Decode(s).value) == s
  {
    var c0, c1 := SymbolValue(s[0]), SymbolValue(s[1]);
    var b0 := c0 * 4 + c1 / 16;
    assert Decode(s).value == [b0];
    assert b0 / 4 == c0 && (b0 % 4) * 16 == c1;
    ValueRoundTrip(s[0]);
    ValueRoundTrip(s[1]);
  }

  /** `c0 c1 c2 =` with the low two bits of `c2` zero is `EncodeTwo` of its bytes. */
  lemma CanonicalTwo(s: string)
    requires Decode(s).Some? && CanonicalPadding(s) && |s| == 4 && s[3] == '='
    requires !(s[2] == '=')
    ensures Encode(Decode(s).value) == s
  {
    var c0, c1, c2 := SymbolValue(s[0]), SymbolValue(s[1]), SymbolValue(s[2]);
    var b0: byte, b1: byte := c0 * 4 + c1 / 16, (c1 % 16) * 16 + c2 / 4;
    calc {
      Encode(Decode(s).value);
      Encode([b0, b1]);
      EncodeTwo(b0, b1);
      { TwoOfValues(c0, c1, c2); }
      [Symbol(c0), Symbol(c1), Symbol(c2), '='];
      { ValueRoundTrip(s[0]); ValueRoundTrip(s[1]); ValueRoundTrip(s[2]); }
      s;
    }
  }

  /** Encoding the two bytes three 6-bit values spell, when the last value's
      low two bits are zero, gives the values' symbols and one `=`. */
  lemma TwoOfValues(c0: nat, c1: nat, c2: nat)
    requires c0 < 64 && c1 < 64 && c2 < 64 && c2 % 4 == 0
    ensures EncodeTwo(c0 * 4 + c1 / 16, (c1 % 16) * 16 + c2 / 4) == [Symbol(c0), Symbol(c1), Symbol(c2), '=']
  {
    var b0, b1 := c0 * 4 + c1 / 16, (c1 % 16) * 16 + c2 / 4;
    assert b0 / 4 == c0 && (b0 % 4) * 16 + b1 / 16 == c1 && (b1 % 16) * 4 == c2;
  }

  /** Past a leading full group, the rest still decodes and is still canonical. */
  lemma CanonicalTail(s: string)
    requires Decode(s).Some? && CanonicalPadding(s)
    requires s != [] && !(|s| == 4 && s[3] == '=')
    ensures |s| >= 4 && IsSymbol(s[0]) && IsSymbol(s[1]) && IsSymbol(s[2]) && IsSymbol(s[3])
    ensures Decode(s[4..]).Some? && CanonicalPadding(s[4..])
  {
    var t := s[4..];
    if |t| >= 4 {
      assert t[|t| - 3] == s[|s| - 3] && t[|t| - 2] == s[|s| - 2] && t[|t| - 1] == s[|s| - 1];
    }
  }

  /** A full group in front of a canonical encoding is the encoding of the
      group's bytes followed by the rest. */
  lemma CanonicalGroup(s: string)
    requires |s| >= 4 && IsSymbol(s[0]) && IsSymbol(s[1]) && IsSymbol(s[2]) && IsSymbol(s[3])
    requires Decode(s[4..]).Some?
    requires Encode(Decode(s[4..]).value) == s[4..]
    ensures Encode(Decode(s).value) == s
  {
    var g := Spelled(s);
    var tail := Decode(s[4..]).value;
    DecodeFront(s, tail);
    EncodeAfterGroup(g, tail);
    GroupSymbols(s);
    JoinHead(s);
  }

  /** The three bytes the first four symbols of `s` spell. */
  function Spelled(s: string): (g: seq<byte>)
    requires |s| >= 4 && IsSymbol(s[0]) && IsSymbol(s[1]) && IsSymbol(s[2]) && IsSymbol(s[3])
    ensures |g| == 3
  {
    Regroup(SymbolValue(s[0]), SymbolValue(s[1]), SymbolValue(s[2]), SymbolValue(s[3]))
  }

  lemma DecodeFront(s: string, tail: seq<byte>)
    requires |s| >= 4 && IsSymbol(s[0]) && IsSymbol(s[1]) && IsSymbol(s[2]) && IsSymbol(s[3])
    requires Decode(s[4..]) == Some(tail)
    ensures Decode(s) == Some(Spelled(s) + tail)
  {
    SymbolsOf(s);
    DecodeSymbols(s, SymbolValue(s[0]), SymbolValue(s[1]), SymbolValue(s[2]), SymbolValue(s[3]), tail);
  }

  /** Each of the first four characters is the symbol of its value. */
  lemma SymbolsOf(s: string)
    requires |s| >= 4 && IsSymbol(s[0]) && IsSymbol(s[1]) && IsSymbol(s[2]) && IsSymbol(s[3])
    ensures s[0] == Symbol(SymbolValue(s[0])) && s[1] == Symbol(SymbolValue(s[1]))
    ensures s[2] == Symbol(SymbolValue(s[2])) && s[3] == Symbol(SymbolValue(s[3]))
  {
    ValueRoundTrip(s[0]);
    ValueRoundTrip(s[1]);
    ValueRoundTrip(s[2]);
    ValueRoundTrip(s[3]);
  }

  /** Re-encoding the bytes that four symbols spell gives the four symbols. */
  lemma GroupSymbols(s: string)
    requires |s| >= 4 && IsSymbol(s[0]) && IsSymbol(s[1]) && IsSymbol(s[2]) && IsSymbol(s[3])
    ensures var g := Spelled(s); EncodeGroup(g[0], g[1], g[2]) == s[..4]
  {
    SpelledDigits(s);
    SymbolsDisplay(s);
  }

  /** Regrouping the spelled bytes into 6-bit values gives the symbols' values back. */
  lemma SpelledDigits(s: string)
    requires |s| >= 4 && IsSymbol(s[0]) && IsSymbol(s[1]) && IsSymbol(s[2]) && IsSymbol(s[3])
    ensures var g := Spelled(s);
      && g[0] / 4 == SymbolValue(s[0])
      && (g[0] % 4) * 16 + g[1] / 16 == SymbolValue(s[1])
      && (g[1] % 16) * 4 + g[2] / 64 == SymbolValue(s[2])
      && g[2] % 64 == SymbolValue(s[3])
  {
    SpelledValues(s);
    GroupSplit(SymbolValue(s[0]), SymbolValue(s[1]), SymbolValue(s[2]), SymbolValue(s[3]));
  }

  lemma SpelledValues(s: string)
    requires |s| >= 4 && IsSymbol(s[0]) && IsSymbol(s[1]) && IsSymbol(s[2]) && IsSymbol(s[3])
    ensures var c0, c1, c2, c3 := SymbolValue(s[0]), SymbolValue(s[1]), SymbolValue(s[2]), SymbolValue(s[3]);
      var g := Spelled(s);
      g[0] == c0 * 4 + c1 / 16 && g[1] == (c1 % 16) * 16 + c2 / 4 && g[2] == (c2 % 4) * 64 + c3
  {
  }

  lemma SymbolsDisplay(s: string)
    requires |s| >= 4 && IsSymbol(s[0]) && IsSymbol(s[1]) && IsSymbol(s[2]) && IsSymbol(s[3])
    ensures [Symbol(SymbolValue(s[0])), Symbol(SymbolValue(s[1])), Symbol(SymbolValue(s[2])),
             Symbol(SymbolValue(s[3]))] == s[..4]
  {
    SymbolsOf(s);
  }

  lemma EncodeAfterGroup(g: seq<byte>, tail: seq<byte>)
    requires |g| == 3
    ensures Encode(g + tail) == EncodeGroup(g[0], g[1], g[2]) + Encode(tail)
  {
    var bs := g + tail;
    EncodeStep(bs);
    assert bs[3..] == tail;
  }

  lemma JoinHead(s: string)
    requires |s| >= 4
    ensures s[..4] + s[4..] == s
  {
  }

  lemma GroupSplit(c0: nat, c1: nat, c2: nat, c3: nat)
    requires c0 < 64 && c1 < 64 && c2 < 64 && c3 < 64
    ensures var b0, b1, b2 := c0 * 4 + c1 / 16, (c1 % 16) * 16 + c2 / 4, (c2 % 4) * 64 + c3;
      && b0 / 4 == c0 && (b0 % 4) * 16 + b1 / 16 == c1
      && (b1 % 16) * 4 + b2 / 64 == c2 && b2 % 64 == c3
  {
  }

  /** Encoded text never contains the token separators `.` and `~`. */
  lemma NoSeparators(bs: seq<byte>)
    ensures '.' !in Encode(bs) && '~' !in Encode(bs)
  {
  }
}

=== FILE: bytes.dfy ===
/** Natural numbers as big-endian byte strings: the part of Go's `math/big`
    that the token encoder relies on (`Int.Bytes` and `Int.BitLen`). */
module Bytes {

  type byte = x: int | 0 <= x < 256

  function Pow(b: nat, e: nat): (r: nat)
    ensures b > 0 ==> r > 0
  {
    if e == 0 then 1 else b * Pow(b, e - 1)
  }

  lemma {:induction false} PowMonotone(b: nat, i: nat, j: nat)
    requires b > 0 && i <= j
    ensures Pow(b, i) <= Pow(b, j)
  {
    if i < j {
      PowMonotone(b, i, j - 1);
    }
  }

  /** `k` zero bytes. */
  function Zeros(k: nat): (z: seq<byte>)
    ensures |z| == k
    ensures forall i :: 0 <= i < k ==> z[i] == 0
  {
    seq(k, _ => 0)
  }

  /** The number a big-endian byte string denotes. */
  function FromBytes(bs: seq<byte>): nat
  {
    if bs == [] then 0 else FromBytes(bs[..|bs| - 1]) * 256 + bs[|bs| - 1]
  }

  /** `big.Int.Bytes`: the shortest big-endian encoding, empty for zero.
      The encoding denotes `n` and has no leading zero byte. */
  function ToBytes(n: nat): (bs: seq<byte>)
    ensures FromBytes(bs) == n
    ensures n == 0 <==> bs == []
    ensures bs != [] ==> bs[0] != 0
    decreases n
  {
    if n == 0 then [] else
      var hi := ToBytes(n / 256);
      var bs := hi + [n % 256];
      assert bs[..|bs| - 1] == hi;
      bs
  }

  lemma {:induction false} FromBytesBound(bs: seq<byte>)
    ensures FromBytes(bs) < Pow(256, |bs|)
  {
    if bs != [] {
      FromBytesBound(bs[..|bs| - 1]);
    }
  }

  /** Leading zero bytes do not change the value a byte string denotes. */
  lemma {:induction false} LeadingZeros(k: nat, bs: seq<byte>)
    ensures FromBytes(Zeros(k) + bs) == FromBytes(bs)
    decreases |bs|
  {
    var z := Zeros(k) + bs;
    if bs == [] {
      assert z == Zeros(k);
      ZerosValue(k);
    } else {
      assert z[..|z| - 1] == Zeros(k) + bs[..|bs| - 1];
      LeadingZeros(k, bs[..|bs| - 1]);
    }
  }

  lemma {:induction false} ZerosValue(k: nat)
    ensures FromBytes(Zeros(k)) == 0
  {
    if k > 0 {
      assert Zeros(k)[..k - 1] == Zeros(k - 1);
      ZerosValue(k - 1);
    }
  }

  /** A minimal encoding with a non-zero first byte is at least `256^(len-1)`. */
  lemma {:induction false} ToBytesLowerBound(n: nat)
    requires n > 0
    ensures Pow(256, |ToBytes(n)| - 1) <= n
    decreases n
  {
    if n / 256 > 0 {
      ToBytesLowerBound(n / 256);
    }
  }

  /** `len(n.Bytes()) <= k` exactly when `n < 256^k`: the guard the signature
      buffer needs is a bound on the number. */
  lemma ToBytesLength(n: nat, k: nat)
    ensures |ToBytes(n)| <= k <==> n < Pow(256, k)
  {
    var len := |ToBytes(n)|;
    FromBytesBound(ToBytes(n));
    if len <= k {
      PowMonotone(256, len, k);
    } else {
      ToBytesLowerBound(n);
      PowMonotone(256, k, len - 1);
    }
  }

  /** `big.Int.BitLen`: the number of bits in the binary form of `n`, zero for zero. */
  function BitLen(n: nat): nat
    decreases n
  {
    if n == 0 then 0 else 1 + BitLen(n / 2)
  }

  /** `BitLen` is the `k` with `2^(k-1) <= n < 2^k`. */
  lemma {:induction false} BitLenBounds(n: nat, k: nat)
    requires 0 < k
    requires Pow(2, k - 1) <= n < Pow(2, k)
    ensures BitLen(n) == k
    decreases k
  {
    if k > 1 {
      BitLenBounds(n / 2, k - 1);
    }
  }
}

=== FILE: issuer_key.dfy ===
/** `MOCKMYID_KEY` (mockmyid.go): the fixed DSA key mockmyid.com signs
    certificates with, each number written as hex text and read with
    `stringToBig`. The long texts are split into 32-digit pieces. */
module IssuerKey {
  import opened Wrappers
  import opened Bytes
  import opened Numerals
  import opened WebToken

  const P0: string := "ff600483db6abfc5b45eab78594b3533"
  const P1: string := "d550d9f1bf2a992a7a8daa6dc34f8045"
  const P2: string := "ad4e6e0c429d334eeeaaefd7e23d4810"
  const P3: string := "be00e4cc1492cba325ba81ff2d5a5b30"
  const P4: string := "5a8d17eb3bf4a06a349d392e00d32974"
  const P5: string := "4a5179380344e82a18c47933438f891e"
  const P6: string := "22aeef812d69c8f75e326cb70ea000c3"
  const P7: string := "f776dfdbd604638c2ef717fc26d02e17"
  const PHex: string := P0 + P1 + P2 + P3 + P4 + P5 + P6 + P7
  const QHex: string := "e21e04f911d1ed7991008ecaab3bf775984309c3"
  const G0: string := "c52a4a0ff3b7e61fdf1867ce84138369"
  const G1: string := "a6154f4afa92966e3c827e25cfa6cf50"
  const G2: string := "8b90e5de419e1337e07a2e9e2a3cd5de"
  const G3: string := "a704d175f8ebf6af397d69e110b96afb"
  const G4: string := "17c7a03259329e4829b0d03bbc7896b1"
  const G5: string := "5b4ade53e130858cc34d96269aa89041"
  const G6: string := "f409136c7242a38895c9d5bccad4f389"
  const G7: string := "af1d7a4bd1398bd072dffa896233397a"
  const GHex: string := G0 + G1 + G2 + G3 + G4 + G5 + G6 + G7
  const Y0: string := "738ec929b559b604a232a9b55a5295af"
  const Y1: string := "c368063bb9c20fac4e53a74970a4db79"
  const Y2: string := "56d48e4c7ed523405f629b4cc83062f1"
  const Y3: string := "3029c4d615bbacb8b97f5e56f0c7ac9b"
  const Y4: string := "c1d4e23809889fa061425c984061fca1"
  const Y5: string := "826040c399715ce7ed385c4dd0d40225"
  const Y6: string := "6912451e03452d3c961614eb458f188e"
  const Y7: string := "3e8d2782916c43dbe2e571251ce38262"
  const YHex: string := Y0 + Y1 + Y2 + Y3 + Y4 + Y5 + Y6 + Y7
  const XHex: string := "385cb3509f086e110c5e24bdd395a84b335a09ae"

  // The lemmas below check the key's hex digits in 32-character chunks.
  // They correspond to nothing in the source: checked in one piece, a
  // 256-digit constant exceeds the solver's resource limit.

  lemma EightChunks(c0: string, c1: string, c2: string, c3: string,
                    c4: string, c5: string, c6: string, c7: string)
    requires AllDigits(c0, 16) && AllDigits(c1, 16) && AllDigits(c2, 16) && AllDigits(c3, 16)
    requires AllDigits(c4, 16) && AllDigits(c5, 16) && AllDigits(c6, 16) && AllDigits(c7, 16)
    ensures AllDigits(c0 + c1 + c2 + c3 + c4 + c5 + c6 + c7, 16)
  {
    AllDigitsAppend(c0, c1, 16);
    AllDigitsAppend(c0 + c1, c2, 16);
    AllDigitsAppend(c0 + c1 + c2, c3, 16);
    AllDigitsAppend(c0 + c1 + c2 + c3, c4, 16);
    AllDigitsAppend(c0 + c1 + c2 + c3 + c4, c5, 16);
    AllDigitsAppend(c0 + c1 + c2 + c3 + c4 + c5, c6, 16);
    AllDigitsAppend(c0 + c1 + c2 + c3 + c4 + c5 + c6, c7, 16);
  }

  lemma PChunk0()
    ensures AllDigits(P0, 16)
  {
  }

  lemma PChunk1()
    ensures AllDigits(P1, 16)
  {
  }

  lemma PChunk2()
    ensures AllDigits(P2, 16)
  {
  }

  lemma PChunk3()
    ensures AllDigits(P3, 16)
  {
  }

  lemma PChunk4()
    ensures AllDigits(P4, 16)
  {
  }

  lemma PChunk5()
    ensures AllDigits(P5, 16)
  {
  }

  lemma PChunk6()
    ensures AllDigits(P6, 16)
  {
  }

  lemma PChunk7()
    ensures AllDigits(P7, 16)
  {
  }

  lemma PDigits()
    ensures AllDigits(PHex, 16) && |PHex| == 256
  {
    PChunk0();
    PChunk1();
    PChunk2();
    PChunk3();
    PChunk4();
    PChunk5();
    PChunk6();
    PChunk7();
    EightChunks(P0, P1, P2, P3, P4, P5, P6, P7);
  }

  lemma GChunk0()
    ensures AllDigits(G0, 16)
  {
  }

  lemma GChunk1()
    ensures AllDigits(G1, 16)
  {
  }

  lemma GChunk2()
    ensures AllDigits(G2, 16)
  {
  }

  lemma GChunk3()
    ensures AllDigits(G3, 16)
  {
  }

  lemma GChunk4()
    ensures AllDigits(G4, 16)
  {
  }

  lemma GChunk5()
    ensures AllDigits(G5, 16)
  {
  }

  lemma GChunk6()
    ensures AllDigits(G6, 16)
  {
  }

  lemma GChunk7()
    ensures AllDigits(G7, 16)
  {
  }

  lemma GDigits()
    ensures AllDigits(GHex, 16) && |GHex| == 256
  {
    GChunk0();
    GChunk1();
    GChunk2();
    GChunk3();
    GChunk4();
    GChunk5();
    GChunk6();
    GChunk7();
    EightChunks(G0, G1, G2, G3, G4, G5, G6, G7);
  }

  lemma YChunk0()
    ensures AllDigits(Y0, 16)
  {
  }

  lemma YChunk1()
    ensures AllDigits(Y1, 16)
  {
  }

  lemma YChunk2()
    ensures AllDigits(Y2, 16)
  {
  }

  lemma YChunk3()
    ensures AllDigits(Y3, 16)
  {
  }

  lemma YChunk4()
    ensures AllDigits(Y4, 16)
  {
  }

  lemma YChunk5()
    ensures AllDigits(Y5, 16)
  {
  }

  lemma YChunk6()
    ensures AllDigits(Y6, 16)
  {
  }

  lemma YChunk7()
    ensures AllDigits(Y7, 16)
  {
  }

  lemma YDigits()
    ensures AllDigits(YHex, 16) && |YHex| == 256
  {
    YChunk0();
    YChunk1();
    YChunk2();
    YChunk3();
    YChunk4();
    YChunk5();
    YChunk6();
    YChunk7();
    EightChunks(Y0, Y1, Y2, Y3, Y4, Y5, Y6, Y7);
  }

  lemma QDigits()
    ensures AllDigits(QHex, 16)
  {
  }

  lemma XDigits()
    ensures AllDigits(XHex, 16)
  {
  }

  /** `MOCKMYID_KEY`: every number is `stringToBig` of its hex text. */
  function MockMyIdKey(): (key: PrivateKey)
    ensures StringToBig(PHex) == Some(key.publicKey.parameters.p)
    ensures StringToBig(QHex) == Some(key.publicKey.parameters.q)
    ensures StringToBig(GHex) == Some(key.publicKey.parameters.g)
    ensures StringToBig(YHex) == Some(key.publicKey.y)
    ensures StringToBig(XHex) == Some(key.x)
  {
    PDigits();
    GDigits();
    YDigits();
    QDigits();
    XDigits();
    UnsignedHex(PHex);
    UnsignedHex(QHex);
    UnsignedHex(GHex);
    UnsignedHex(YHex);
    UnsignedHex(XHex);
    PrivateKey(
      PublicKey(Parameters(ValueOf(PHex, 16), ValueOf(QHex, 16), ValueOf(GHex, 16)), ValueOf(YHex, 16)),
      ValueOf(XHex, 16))
  }

  /** The key's modulus has 1024 bits. */
  lemma MockMyIdModulusSize()
    ensures BitLen(MockMyIdKey().publicKey.parameters.p) == 1024
  {
    PDigits();
    UnsignedHex(PHex);
    assert PHex[0] == 'f';
    HexBitLength(PHex, 256);
  }

  /** The key's subgroup order has 160 bits. */
  lemma MockMyIdOrderSize()
    ensures Pow(2, 159) <= MockMyIdKey().publicKey.parameters.q < Pow(2, 160)
  {
    QDigits();
    UnsignedHex(QHex);
    HexRange(QHex, 40);
  }

  /** Certificates signed with the key carry the tag `"DS128"`, the one
      assertions hard-code. */
  lemma MockMyIdCertificateTag()
    ensures CertificateAlgorithm(MockMyIdKey()) == AssertionAlgorithm
  {
    MockMyIdModulusSize();
    Modulus1024Tag(MockMyIdKey());
  }

  /** Signatures made with the key fit the 40-byte buffer. */
  lemma MockMyIdSignaturesFit(crypto: Crypto)
    requires SignsBelowOrder(crypto)
    ensures SignatureFits(crypto, MockMyIdKey())
  {
    MockMyIdOrderSize();
    PowByte(HalfLength);
    OrderBoundFits(crypto, MockMyIdKey());
  }
}

=== FILE: json.dfy ===
/** The subset of `encoding/json` the tokens use: objects whose members keep
    their declaration order, strings and integers. `Serialize` is what
    `json.Marshal` writes for the token structs; `Parse` is the reading side a
    verifier applies, proved to undo `Serialize`. */
module Json {
  import opened Wrappers
  import opened Numerals

  datatype Value =
    | Str(s: string)
    | Int(n: int)
    | Object(members: seq<Member>)

  datatype Member = Member(key: string, value: Value)

  /** Member keys of an object, in order. */
  function Keys(ms: seq<Member>): (ks: seq<string>)
    ensures |ks| == |ms|
    ensures forall i :: 0 <= i < |ms| ==> ks[i] == ms[i].key
  {
    seq(|ms|, i requires 0 <= i < |ms| => ms[i].key)
  }

  function Size(v: Value): (n: nat)
    ensures n >= 1
  {
    match v
    case Object(ms) => 1 + MembersSize(ms)
    case _ => 1
  }

  function MembersSize(ms: seq<Member>): nat {
    if ms == [] then 0 else Size(ms[0].value) + MembersSize(ms[1..])
  }

  // ---------------------------------------------------------------------
  // Writing

  /** Characters Go writes as `\u00XX` (or `\u202X`): other control
      characters, the HTML-sensitive `<`, `>`, `&`, and U+2028, U+2029. */
  predicate NeedsUnicodeEscape(c: char) {
    c < ' ' || c == '<' || c == '>' || c == '&' || c as int == 0x2028 || c as int == 0x2029
  }

  /** Four lower-case hex digits of `v`. */
  function Hex4(v: nat): string
    requires v < 0x1_0000
  {
    [DigitChar(v / 4096), DigitChar((v / 256) % 16), DigitChar((v / 16) % 16), DigitChar(v % 16)]
  }

  /** How one character appears inside a JSON string. */
  function EscapeChar(c: char): string {
    if c == '"' then ['\\', '"']
    else if c == '\\' then ['\\', '\\']
    else if c == '\n' then ['\\', 'n']
    else if c == '\r' then ['\\', 'r']
    else if c == '\t' then ['\\', 't']
    else if NeedsUnicodeEscape(c) then ['\\', 'u'] + Hex4(c as int)
    else [c]
  }

  function Escape(s: string): string {
    if s == [] then [] else EscapeChar(s[0]) + Escape(s[1..])
  }

  function Quote(s: string): string {
    "\"" + Escape(s) + "\""
  }

  /** `json.Marshal`: members in order, `"key":value`, separated by commas,
      no white space. */
  function Serialize(v: Value): string
    decreases Size(v), 1
  {
    match v
    case Str(s) => Quote(s)
    case Int(n) => Decimal(n)
    case Object(ms) => if ms == [] then "{}" else "{" + SerializeMembers(ms) + "}"
  }

  function SerializeMembers(ms: seq<Member>): string
    requires ms != []
    decreases MembersSize(ms), 2
  {
    var head := Quote(ms[0].key) + ":" + Serialize(ms[0].value);
    if |ms| == 1 then head else head + "," + SerializeMembers(ms[1..])
  }

  // ---------------------------------------------------------------------
  // Reading

  function HexQuad(a: char, b: char, c: char, d: char): Option<nat> {
    if IsDigit(a, 16) && IsDigit(b, 16) && IsDigit(c, 16) && IsDigit(d, 16) then
      Some(DigitValue(a, 16) * 4096 + DigitValue(b, 16) * 256 + DigitValue(c, 16) * 16 + DigitValue(d, 16))
    else None
  }

  /** The character an escape sequence at the front of `s` stands for, and its length. */
  function Unescape(s: string): (r: Option<(char, nat)>)
    requires |s| >= 1 && s[0] == '\\'
    ensures r.Some? ==> 2 <= r.value.1 <= |s|
  {
    if |s| < 2 then None
    else if s[1] == '"' then Some(('"', 2))
    else if s[1] == '\\' then Some(('\\', 2))
    else if s[1] == '/' then Some(('/', 2))
    else if s[1] == 'n' then Some(('\n', 2))
    else if s[1] == 'r' then Some(('\r', 2))
    else if s[1] == 't' then Some(('\t', 2))
    else if s[1] == 'b' then Some((8 as char, 2))
    else if s[1] == 'f' then Some((12 as char, 2))
    else if s[1] == 'u' && |s| >= 6 then
      match HexQuad(s[2], s[3], s[4], s[5])
      case Some(v) =>
        if v < 0xD800 || 0xE000 <= v then Some((v as char, 6)) else None
      case None => None
    else None
  }

  /** The contents of a string literal whose opening quote has been read, and
      the text after its closing quote. */
  function ParseStringBody(s: string): (r: Option<(string, string)>)
    ensures r.Some? ==> |r.value.1| < |s|
    decreases |s|
  {
    if s == [] then None
    else if s[0] == '"' then Some(([], s[1..]))
    else
      var (c, k) :=
        if s[0] == '\\' then
          (match Unescape(s) case Some(ck) => ck case None => (' ', 0))
        else if s[0] < ' ' then (' ', 0)
        else (s[0], 1);
      if k == 0 then None
      else
        match ParseStringBody(s[k..])
        case None => None
        case Some((t, rest)) => Some(([c] + t, rest))
  }

  /** Number of leading decimal digits. */
  function DigitRun(s: string): (k: nat)
    ensures k <= |s| && AllDigits(s[..k], 10)
    ensures k < |s| ==> !IsDigit(s[k], 10)
  {
    if s == [] || !IsDigit(s[0], 10) then 0 else
      var k := 1 + DigitRun(s[1..]);
      assert s[..k] == [s[0]] + s[1..][..k - 1];
      k
  }

  /** One or more decimal digits and the text after them. */
  function ParseNat(s: string): (r: Option<(int, string)>)
    ensures r.Some? ==> |r.value.1| < |s| && r.value.0 >= 0
  {
    var k := DigitRun(s);
    if k == 0 then None else Some((ValueOf(s[..k], 10) as int, s[k..]))
  }

  /** An integer: an optional minus sign and one or more digits. */
  function ParseInt(s: string): (r: Option<(int, string)>)
    ensures r.Some? ==> |r.value.1| < |s|
  {
    if |s| >= 1 && s[0] == '-' then
      match ParseNat(s[1..])
      case None => None
      case Some((m, t)) => Some((-m, t))
    else
      match ParseNat(s)
      case None => None
      case Some((m, t)) => Some((m, t))
  }

  function ParseValue(s: string): (r: Option<(Value, string)>)
    ensures r.Some? ==> |r.value.1| < |s|
    decreases |s|, 2
  {
    if s == [] then None
    else if s[0] == '"' then
      match ParseStringBody(s[1..])
      case None => None
      case Some((t, rest)) => Some((Str(t), rest))
    else if s[0] == '{' then
      ParseObject(s[1..])
    else
      match ParseInt(s)
      case None => None
      case Some((n, rest)) => Some((Int(n), rest))
  }

  /** An object whose opening brace has been read. */
  function ParseObject(s: string): (r: Option<(Value, string)>)
    ensures r.Some? ==> |r.value.1| < |s|
    decreases |s|, 1
  {
    if |s| >= 1 && s[0] == '}' then Some((Object([]), s[1..]))
    else
      match ParseMembers(s)
      case None => None
      case Some((ms, rest)) => Some((Object(ms), rest))
  }

  /** One or more `"key":value` members separated by commas, then the closing brace. */
  function ParseMembers(s: string): (r: Option<(seq<Member>, string)>)
    ensures r.Some? ==> |r.value.1| < |s|
    decreases |s|, 0
  {
    if s == [] || s[0] != '"' then None
    else
      match ParseStringBody(s[1..])
      case None => None
      case Some((key, r1)) =>
        if r1 == [] || r1[0] != ':' then None
        else
          match ParseValue(r1[1..])
          case None => None
          case Some((v, r2)) =>
            if r2 == [] then None
            else if r2[0] == '}' then Some(([Member(key, v)], r2[1..]))
            else if r2[0] == ',' then
              match ParseMembers(r2[1..])
              case None => None
              case Some((ms, r3)) => Some(([Member(key, v)] + ms, r3))
            else None
  }

  /** A whole document: one value and nothing after it. */
  function Parse(s: string): Option<Value> {
    match ParseValue(s)
    case Some((v, rest)) => if rest == [] then Some(v) else None
    case None => None
  }

  // ---------------------------------------------------------------------
  // Reading undoes writing

  lemma HexQuadArithmetic(v: nat)
    requires v < 0x1_0000
    ensures (v / 4096) * 4096 + ((v / 256) % 16) * 256 + ((v / 16) % 16) * 16 + v % 16 == v
  {
    assert v / 256 == (v / 4096) * 16 + (v / 256) % 16;
    assert v / 16 == (v / 256) * 16 + (v / 16) % 16;
  }

  lemma EscapeCharRoundTrip(c: char, t: string)
    ensures ParseStringBody(EscapeChar(c) + t) ==
      match ParseStringBody(t)
      case None => None
      case Some((u, rest)) => Some(([c] + u, rest))
  {
    var e := EscapeChar(c);
    var s := e + t;
    assert s[|e|..] == t;
    if c != '"' && c != '\\' && c != '\n' && c != '\r' && c != '\t' && NeedsUnicodeEscape(c) {
      UnicodeEscapeRoundTrip(c, t);
    }
  }

  /** A `\uXXXX` escape reads back as its character, six characters long. */
  lemma UnicodeEscapeRoundTrip(c: char, t: string)
    requires c != '"' && c != '\\' && c != '\n' && c != '\r' && c != '\t' && NeedsUnicodeEscape(c)
    ensures |EscapeChar(c)| == 6
    ensures Unescape(EscapeChar(c) + t) == Some((c, 6))
  {
    var v := c as int;
    var h := Hex4(v);
    var s := EscapeChar(c) + t;
    assert s[2] == h[0] && s[3] == h[1] && s[4] == h[2] && s[5] == h[3];
    HexQuadRoundTrip(v);
  }

  /** Four hex digits read back as the number they were written from. */
  lemma HexQuadRoundTrip(v: nat)
    requires v < 0x1_0000
    ensures var h := Hex4(v); HexQuad(h[0], h[1], h[2], h[3]) == Some(v)
  {
    DigitCharValue(v / 4096, 16);
    DigitCharValue((v / 256) % 16, 16);
    DigitCharValue((v / 16) % 16, 16);
    DigitCharValue(v % 16, 16);
    HexQuadArithmetic(v);
  }

  lemma {:induction false} EscapeRoundTrip(s: string, rest: string)
    ensures ParseStringBody(Escape(s) + "\"" + rest) == Some((s, rest))
  {
    if s == [] {
      assert Escape(s) + "\"" + rest == ['"'] + rest;
    } else {
      var t := Escape(s[1..]) + "\"" + rest;
      assert Escape(s) + "\"" + rest == EscapeChar(s[0]) + t;
      EscapeCharRoundTrip(s[0], t);
      EscapeRoundTrip(s[1..], rest);
      assert [s[0]] + s[1..] == s;
    }
  }

  /** Text that may follow a value in a serialized document. */
  predicate IsFollower(rest: string) {
    rest == [] || rest[0] == ',' || rest[0] == '}'
  }

  lemma {:induction false} DigitRunExact(a: string, rest: string)
    requires AllDigits(a, 10) && IsFollower(rest)
    ensures DigitRun(a + rest) == |a|
    decreases |a|
  {
    if a == [] {
      assert a + rest == rest;
    } else {
      assert (a + rest)[1..] == a[1..] + rest;
      DigitRunExact(a[1..], rest);
    }
  }

  lemma ParseDigits(digits: string, rest: string)
    requires AllDigits(digits, 10) && |digits| >= 1 && IsFollower(rest)
    ensures var t := digits + rest;
      DigitRun(t) == |digits| && t[..|digits|] == digits && t[|digits|..] == rest
  {
    DigitRunExact(digits, rest);
    assert (digits + rest)[..|digits|] == digits;
  }

  /** Digits followed by a follower parse as their value. */
  lemma ParseUnsigned(digits: string, rest: string)
    requires AllDigits(digits, 10) && |digits| >= 1 && IsFollower(rest)
    ensures ParseNat(digits + rest) == Some((ValueOf(digits, 10) as int, rest))
  {
    ParseDigits(digits, rest);
  }

  /** A leading minus sign negates what follows it. */
  lemma NegativeStep(t: string)
    requires ParseNat(t).Some?
    ensures ParseInt("-" + t) == Some((-ParseNat(t).value.0, ParseNat(t).value.1))
  {
    assert ("-" + t)[1..] == t;
  }

  /** Digits alone, not after a sign, parse as their value. */
  lemma ParsePositive(digits: string, rest: string)
    requires AllDigits(digits, 10) && |digits| >= 1 && IsFollower(rest)
    ensures ParseInt(digits + rest) == Some((ValueOf(digits, 10) as int, rest))
  {
    ParseUnsigned(digits, rest);
    assert IsDigit((digits + rest)[0], 10);
  }

  lemma IntRoundTrip(n: int, rest: string)
    requires IsFollower(rest)
    ensures ParseInt(Decimal(n) + rest) == Some((n, rest))
  {
    if n < 0 {
      NegativeRoundTrip(n, rest);
    } else {
      ParsePositive(Numeral(n, 10), rest);
    }
  }

  lemma NegativeRoundTrip(n: int, rest: string)
    requires n < 0 && IsFollower(rest)
    ensures ParseInt(Decimal(n) + rest) == Some((n, rest))
  {
    var digits := Numeral(-n, 10);
    var t := digits + rest;
    assert ParseNat(t) == Some((-n, rest)) by {
      ParseUnsigned(digits, rest);
    }
    calc {
      ParseInt(Decimal(n) + rest);
      { NegativeText(n, rest); }
      ParseInt("-" + t);
      { NegativeStep(t); }
      Some((n, rest));
    }
  }

  lemma NegativeText(n: int, rest: string)
    requires n < 0
    ensures Decimal(n) + rest == "-" + (Numeral(-n, 10) + rest)
  {
  }

  /** Parsing the serialization of any value, followed by a comma, a closing
      brace or nothing, gives back the value and the following text. */
  lemma StrRoundTrip(s: string, rest: string)
    ensures ParseValue(Serialize(Str(s)) + rest) == Some((Str(s), rest))
  {
    assert Serialize(Str(s)) + rest == ['"'] + (Escape(s) + "\"" + rest);
    EscapeRoundTrip(s, rest);
  }

  lemma IntValueRoundTrip(n: int, rest: string)
    requires IsFollower(rest)
    ensures ParseValue(Serialize(Int(n)) + rest) == Some((Int(n), rest))
  {
    IntRoundTrip(n, rest);
    assert Serialize(Int(n))[0] != '"' && Serialize(Int(n))[0] != '{';
  }

  lemma {:induction false} ValueRoundTrip(v: Value, rest: string)
    requires IsFollower(rest)
    ensures ParseValue(Serialize(v) + rest) == Some((v, rest))
    decreases Size(v), 1
  {
    match v
    case Str(s) =>
      StrRoundTrip(s, rest);
    case Int(n) =>
      IntValueRoundTrip(n, rest);
    case Object(ms) =>
      ObjectRoundTrip(ms, rest);
  }

  lemma {:induction false} ObjectRoundTrip(ms: seq<Member>, rest: string)
    requires IsFollower(rest)
    ensures ParseValue(Serialize(Object(ms)) + rest) == Some((Object(ms), rest))
    decreases 1 + MembersSize(ms), 0
  {
    if ms == [] {
      assert Serialize(Object(ms)) + rest == ['{', '}'] + rest;
    } else {
      var body := SerializeMembers(ms) + "}" + rest;
      assert Serialize(Object(ms)) + rest == ['{'] + body;
      MembersRoundTrip(ms, rest);
      assert body[0] == '"';
    }
  }

  lemma {:induction false} MembersRoundTrip(ms: seq<Member>, rest: string)
    requires ms != []
    ensures SerializeMembers(ms)[0] == '"'
    ensures ParseMembers(SerializeMembers(ms) + "}" + rest) == Some((ms, rest))
    decreases MembersSize(ms), 2
  {
    var m := ms[0];
    var tail := if |ms| == 1 then "}" + rest else "," + (SerializeMembers(ms[1..]) + "}" + rest);
    var r1 := ":" + (Serialize(m.value) + tail);
    var s := SerializeMembers(ms) + "}" + rest;
    FirstMemberText(ms, rest, tail, r1);
    assert ParseValue(r1[1..]) == Some((m.value, tail)) by {
      ValueRoundTrip(m.value, tail);
    }
    ParseMembersStep(s, m.key, r1, m.value, tail);
    if |ms| > 1 {
      assert ParseMembers(tail[1..]) == Some((ms[1..], rest)) by {
        assert MembersSize(ms) == Size(m.value) + MembersSize(ms[1..]);
        MembersRoundTrip(ms[1..], rest);
      }
      assert [m] + ms[1..] == ms;
    } else {
      assert ms == [m];
    }
  }

  /** The serialized members read as a quote, the first key, a quote, a
      colon, the first value, then `tail`: a closing brace or a comma before
      the rest. */
  lemma FirstMemberText(ms: seq<Member>, rest: string, tail: string, r1: string)
    requires ms != []
    requires tail == if |ms| == 1 then "}" + rest else "," + (SerializeMembers(ms[1..]) + "}" + rest)
    requires r1 == ":" + (Serialize(ms[0].value) + tail)
    ensures var s := SerializeMembers(ms) + "}" + rest;
      && SerializeMembers(ms)[0] == '"'
      && |s| >= 1 && s[0] == '"'
      && ParseStringBody(s[1..]) == Some((ms[0].key, r1))
      && |r1| >= 1 && r1[0] == ':' && r1[1..] == Serialize(ms[0].value) + tail
      && IsFollower(tail) && |tail| >= 1 && (tail[0] == '}' || tail[0] == ',')
      && (|ms| == 1 ==> tail[0] == '}' && tail[1..] == rest)
      && (|ms| > 1 ==> tail[0] == ',' && tail[1..] == SerializeMembers(ms[1..]) + "}" + rest)
  {
    var m := ms[0];
    var s := SerializeMembers(ms) + "}" + rest;
    assert s == "\"" + (Escape(m.key) + "\"" + r1) by {
      MemberText(ms, rest, tail);
      QuoteText(m.key, Serialize(m.value), tail);
      AssociateFive("\"", Escape(m.key), "\"", ":", Serialize(m.value), tail);
    }
    assert ParseStringBody(s[1..]) == Some((m.key, r1)) by {
      assert s[1..] == Escape(m.key) + "\"" + r1;
      EscapeRoundTrip(m.key, r1);
    }
    assert SerializeMembers(ms)[0] == s[0];
  }

  /** One step of reading members: a key, a colon, a value, then the closing
      brace or a comma and more members. */
  lemma ParseMembersStep(s: string, key: string, r1: string, v: Value, r2: string)
    requires |s| >= 1 && s[0] == '"'
    requires ParseStringBody(s[1..]) == Some((key, r1))
    requires |r1| >= 1 && r1[0] == ':'
    requires ParseValue(r1[1..]) == Some((v, r2))
    requires |r2| >= 1 && (r2[0] == '}' || r2[0] == ',')
    ensures ParseMembers(s) ==
      if r2[0] == '}' then Some(([Member(key, v)], r2[1..]))
      else match ParseMembers(r2[1..])
        case None => None
        case Some((ms, r3)) => Some(([Member(key, v)] + ms, r3))
  {
  }

  /** The serialized members, cut after the first member's key and value. */
  lemma MemberText(ms: seq<Member>, rest: string, tail: string)
    requires ms != []
    requires tail == if |ms| == 1 then "}" + rest else "," + (SerializeMembers(ms[1..]) + "}" + rest)
    ensures SerializeMembers(ms) + "}" + rest == Quote(ms[0].key) + ":" + Serialize(ms[0].value) + tail
  {
    var head := Quote(ms[0].key) + ":" + Serialize(ms[0].value);
    if |ms| == 1 {
      assert SerializeMembers(ms) == head;
      AssociateThree(head, "}", rest);
    } else {
      var more := SerializeMembers(ms[1..]);
      assert SerializeMembers(ms) == head + "," + more;
      AssociateTail(head, ",", more, "}", rest);
    }
  }

  // Re-bracketings of concatenations, kept as separate lemmas so that each
  // round-trip step shows the solver only the one it needs. They correspond
  // to nothing in the source.

  lemma QuoteText(k: string, v: string, tail: string)
    ensures Quote(k) + ":" + v + tail == "\"" + Escape(k) + "\"" + ":" + v + tail
  {
  }

  lemma AssociateThree(a: string, b: string, c: string)
    ensures a + b + c == a + (b + c)
  {
  }

  lemma AssociateTail(a: string, b: string, c: string, d: string, e: string)
    ensures a + b + c + d + e == a + (b + (c + d + e))
  {
  }

  lemma AssociateFive(a: string, b: string, c: string, d: string, e: string, f: string)
    ensures a + b + c + d + e + f == a + (b + c + (d + (e + f)))
  {
  }

  /** Parsing a serialized document gives back the value. */
  lemma RoundTrip(v: Value)
    ensures Parse(Serialize(v)) == Some(v)
  {
    ValueRoundTrip(v, []);
    assert Serialize(v) + [] == Serialize(v);
  }
}

=== FILE: mockmyid.dfy ===
/** The mockmyid.com issuer (mockmyid.go): usernames are put in the
    `@mockmyid.com` domain, certificates are signed with the fixed
    mockmyid.com key, and the short-lived assertion uses fixed validity
    windows measured back from the current instant. */
module MockMyId {
  import opened Wrappers
  import opened Bytes
  import opened Numerals
  import opened Text
  import opened Json
  import opened WebToken
  import opened IssuerKey

  // ---------------------------------------------------------------------
  // Durations, in nanoseconds as `time.Duration` counts them

  const Second: int := 1_000_000_000
  const CertificateDuration: int := 60 * 60 * Second
  const AssertionDuration: int := 60 * 60 * Second
  const CertificateIssuedOffset: int := 30 * Second
  const AssertionIssuedOffset: int := 15 * Second

  /** The email domain, also the certificate issuer. */
  const Domain: string := "@mockmyid.com"

  /** The issuer written into assertions. */
  const AssertionIssuer: string := "127.0.0.1"

  // ---------------------------------------------------------------------
  // Usernames

  /** The principal's email: `username` itself when it already ends in the
      domain, otherwise `username` with the domain appended. */
  function NormalizeUsername(username: string): (email: string)
    ensures EndsWith(email, Domain)
    ensures |username| <= |email| && email[..|username|] == username
    ensures email == username <==> EndsWith(username, Domain)
    ensures !EndsWith(username, Domain) ==> email == username + Domain
  {
    if EndsWith(username, Domain) then username
    else
      var email := username + Domain;
      assert email[|email| - |Domain|..] == Domain;
      email
  }

  /** Normalizing twice is normalizing once. */
  lemma NormalizeIdempotent(username: string)
    ensures NormalizeUsername(NormalizeUsername(username)) == NormalizeUsername(username)
  {
  }

  // ---------------------------------------------------------------------
  // Issuing

  /** The certificate payload issued for `username`'s `key`, valid for
      `duration` from `issuedAt`. */
  function CertificatePayloadFor(key: PrivateKey, username: string, issuedAt: int,
                                 duration: int): CertificatePayload {
    NewCertificatePayload(key, NormalizeUsername(username), Domain, issuedAt, AddDuration(issuedAt, duration))
  }

  /** The assertion payload issued by `127.0.0.1` for `audience`, valid for
      `duration` from `issuedAt`. */
  function AssertionPayloadFor(audience: string, issuedAt: int, duration: int): AssertionPayload {
    NewAssertionPayload(AssertionIssuer, issuedAt, AddDuration(issuedAt, duration), audience)
  }

  /** What signing the certificate for `username`'s `key` with `issuerKey` yields. */
  function CertificateSignature(issuerKey: PrivateKey, key: PrivateKey, username: string, issuedAt: int,
                                duration: int, crypto: Crypto): Result<Signature, Error> {
    var payload := CertificateJson(CertificatePayloadFor(key, username, issuedAt, duration));
    crypto.sign(issuerKey, MessageDigest(crypto, Message(CertificateAlgorithm(issuerKey), payload)))
  }

  /** The body of `createMockMyIDCertificate` with the signing key as the
      parameter `issuerKey`. It fails exactly when signing fails, with the
      signer's error. On success the certificate is a single token, free of
      `~`, whose decoding has the header tag computed from `issuerKey`, the
      certificate payload for the normalized username, and a signature made
      with `issuerKey` over its first two segments. */
  function IssueCertificate(issuerKey: PrivateKey, key: PrivateKey, username: string, issuedAt: int,
                            duration: int, crypto: Crypto): (r: Result<string, Error>)
    requires SignatureFits(crypto, issuerKey)
    ensures var signed := CertificateSignature(issuerKey, key, username, issuedAt, duration, crypto);
      && (r.Failure? <==> signed.Failure?)
      && (r.Failure? ==> r.error == signed.error)
    ensures r.Success? ==>
      && '~' !in r.value
      && DecodeToken(r.value).Some?
      && SignedToken(DecodeToken(r.value).value, HeaderJson(WebTokenHeader(CertificateAlgorithm(issuerKey))),
                     CertificateJson(CertificatePayloadFor(key, username, issuedAt, duration)),
                     issuerKey, crypto)
  {
    var payload := CertificatePayloadFor(key, username, issuedAt, duration);
    var r := CreateCertificate(key, NormalizeUsername(username), Domain, issuedAt, AddDuration(issuedAt, duration),
                               issuerKey, crypto);
    if r.Success? then
      TokenRoundTrip(CertificateAlgorithm(issuerKey), CertificateJson(payload), issuerKey, crypto);
      TokenHasNoTilde(CertificateAlgorithm(issuerKey), CertificateJson(payload), issuerKey, crypto);
      r
    else r
  }

  /** `createMockMyIDCertificate`: a certificate for `key`'s public half and
      the normalized username, issued by the domain and signed with the
      mockmyid.com key. It fails exactly when signing fails, with the
      signer's error. On success its decoding has the `"DS128"` header, the
      certificate payload, and a signature made with the mockmyid.com key. */
  function CreateMockMyIdCertificate(key: PrivateKey, username: string, issuedAt: int,
                                     duration: int, crypto: Crypto): (r: Result<string, Error>)
    requires SignsBelowOrder(crypto)
    ensures var signed := CertificateSignature(MockMyIdKey(), key, username, issuedAt, duration, crypto);
      && (r.Failure? <==> signed.Failure?)
      && (r.Failure? ==> r.error == signed.error)
    ensures r.Success? ==>
      && '~' !in r.value
      && DecodeToken(r.value).Some?
      && SignedToken(DecodeToken(r.value).value, HeaderJson(WebTokenHeader(AssertionAlgorithm)),
                     CertificateJson(CertificatePayloadFor(key, username, issuedAt, duration)),
                     MockMyIdKey(), crypto)
  {
    MockMyIdSignaturesFit(crypto);
    MockMyIdCertificateTag();
    IssueCertificate(MockMyIdKey(), key, username, issuedAt, duration, crypto)
  }

  /** The body of `CreateMockMyIDAssertion` with the certificate signing key
      as the parameter `issuerKey`: a certificate error is returned as it
      is; otherwise the certificate, `~`, and an assertion signed with `key`,
      issued by `127.0.0.1` for `audience`, or the signer's error for it. */
  function IssueAssertion(issuerKey: PrivateKey, key: PrivateKey, username: string, audience: string,
                          certificateIssuedAt: int, certificateDuration: int,
                          assertionIssuedAt: int, assertionDuration: int,
                          crypto: Crypto): (r: Result<string, Error>)
    requires SignatureFits(crypto, issuerKey) && SignatureFits(crypto, key)
    ensures var cert := IssueCertificate(issuerKey, key, username, certificateIssuedAt, certificateDuration, crypto);
      var assertion := EncodeAssertion(AssertionPayloadFor(audience, assertionIssuedAt, assertionDuration), key, crypto);
      && (cert.Failure? ==> r == Failure(cert.error))
      && (cert.Success? && assertion.Failure? ==> r == Failure(assertion.error))
      && (r.Success? <==> cert.Success? && assertion.Success?)
  {
    var certificate := IssueCertificate(issuerKey, key, username, certificateIssuedAt, certificateDuration, crypto);
    if certificate.Failure? then Failure(certificate.error) else
      CreateAssertion(key, certificate.value, audience, AssertionIssuer, assertionIssuedAt,
                      AddDuration(assertionIssuedAt, assertionDuration), crypto)
  }

  /** With a certificate issued, `IssueAssertion` is `CreateAssertion` around it. */
  lemma IssueAssertionStep(issuerKey: PrivateKey, key: PrivateKey, username: string, audience: string,
                           certificateIssuedAt: int, certificateDuration: int,
                           assertionIssuedAt: int, assertionDuration: int, crypto: Crypto)
    requires SignatureFits(crypto, issuerKey) && SignatureFits(crypto, key)
    requires IssueCertificate(issuerKey, key, username, certificateIssuedAt, certificateDuration, crypto).Success?
    ensures IssueAssertion(issuerKey, key, username, audience, certificateIssuedAt, certificateDuration,
                           assertionIssuedAt, assertionDuration, crypto)
         == CreateAssertion(key, IssueCertificate(issuerKey, key, username, certificateIssuedAt,
                                                  certificateDuration, crypto).value,
                            audience, AssertionIssuer, assertionIssuedAt,
                            AddDuration(assertionIssuedAt, assertionDuration), crypto)
  {
  }

  /** Decoding a bundle from `IssueAssertion` gives back the certificate's
      decoding and an assertion with the `"DS128"` header, the assertion
      payload, and a signature made with `key` over the assertion's first
      two segments. */
  lemma IssuedBundleRoundTrip(issuerKey: PrivateKey, key: PrivateKey, username: string, audience: string,
                              certificateIssuedAt: int, certificateDuration: int,
                              assertionIssuedAt: int, assertionDuration: int, crypto: Crypto)
    requires SignatureFits(crypto, issuerKey) && SignatureFits(crypto, key)
    ensures var r := IssueAssertion(issuerKey, key, username, audience, certificateIssuedAt,
                                    certificateDuration, assertionIssuedAt, assertionDuration, crypto);
      var cert := IssueCertificate(issuerKey, key, username, certificateIssuedAt, certificateDuration, crypto);
      r.Success? ==>
        && cert.Success?
        && DecodeBundle(r.value).Some?
        && var (c, a) := DecodeBundle(r.value).value;
        && c == DecodeToken(cert.value).value
        && SignedToken(a, HeaderJson(WebTokenHeader(AssertionAlgorithm)),
                       AssertionJson(AssertionPayloadFor(audience, assertionIssuedAt, assertionDuration)),
                       key, crypto)
  {
    var cert := IssueCertificate(issuerKey, key, username, certificateIssuedAt, certificateDuration, crypto);
    if cert.Success? {
      IssueAssertionStep(issuerKey, key, username, audience, certificateIssuedAt,
                         certificateDuration, assertionIssuedAt, assertionDuration, crypto);
      BundleRoundTrip(key, cert.value, audience, AssertionIssuer, assertionIssuedAt,
                      AddDuration(assertionIssuedAt, assertionDuration), crypto);
    }
  }

  /** `CreateMockMyIDAssertion`: `IssueAssertion` with the mockmyid.com key. */
  function CreateMockMyIdAssertion(key: PrivateKey, username: string, audience: string,
                                   certificateIssuedAt: int, certificateDuration: int,
                                   assertionIssuedAt: int, assertionDuration: int,
                                   crypto: Crypto): (r: Result<string, Error>)
    requires SignsBelowOrder(crypto) && SignatureFits(crypto, key)
  {
    MockMyIdSignaturesFit(crypto);
    IssueAssertion(MockMyIdKey(), key, username, audience, certificateIssuedAt, certificateDuration,
                   assertionIssuedAt, assertionDuration, crypto)
  }

  /** A bundle from `CreateMockMyIdAssertion` splits at its `~` into a
      certificate and an assertion that both carry the `"DS128"` header: the
      certificate has the certificate payload for the normalized username
      and is signed with the mockmyid.com key, the assertion has the
      assertion payload and is signed with `key`. */
  lemma MockMyIdBundleRoundTrip(key: PrivateKey, username: string, audience: string,
                                certificateIssuedAt: int, certificateDuration: int,
                                assertionIssuedAt: int, assertionDuration: int, crypto: Crypto)
    requires SignsBelowOrder(crypto) && SignatureFits(crypto, key)
    ensures var r := CreateMockMyIdAssertion(key, username, audience, certificateIssuedAt, certificateDuration,
                                             assertionIssuedAt, assertionDuration, crypto);
      r.Success? ==>
        && DecodeBundle(r.value).Some?
        && var (c, a) := DecodeBundle(r.value).value;
        && SignedToken(c, HeaderJson(WebTokenHeader(AssertionAlgorithm)),
                       CertificateJson(CertificatePayloadFor(key, username, certificateIssuedAt, certificateDuration)),
                       MockMyIdKey(), crypto)
        && SignedToken(a, HeaderJson(WebTokenHeader(AssertionAlgorithm)),
                       AssertionJson(AssertionPayloadFor(audience, assertionIssuedAt, assertionDuration)),
                       key, crypto)
  {
    MockMyIdSignaturesFit(crypto);
    MockMyIdCertificateTag();
    IssuedBundleRoundTrip(MockMyIdKey(), key, username, audience, certificateIssuedAt, certificateDuration,
                          assertionIssuedAt, assertionDuration, crypto);
  }

  /** `CreateShortLivedMockMyIDAssertion` at the instant `now`: the
      certificate is issued 30 seconds and the assertion 15 seconds before
      `now`, each valid for an hour. */
  function CreateShortLivedMockMyIdAssertion(key: PrivateKey, username: string, audience: string,
                                             now: int, crypto: Crypto): Result<string, Error>
    requires SignsBelowOrder(crypto) && SignatureFits(crypto, key)
  {
    CreateMockMyIdAssertion(key, username, audience,
                            AddDuration(now, -CertificateIssuedOffset), CertificateDuration,
                            AddDuration(now, -AssertionIssuedOffset), AssertionDuration, crypto)
  }

  /** For an instant at least 30 seconds after the epoch, the short-lived
      windows in milliseconds: the certificate starts 30 000 ms before
      `now`, the assertion 15 000 ms after the certificate, and each lasts
      3 600 000 ms. */
  lemma ShortLivedWindows(key: PrivateKey, username: string, audience: string, now: int)
    requires now >= CertificateIssuedOffset
    ensures var c := CertificatePayloadFor(key, username, AddDuration(now, -CertificateIssuedOffset),
                                           CertificateDuration);
      var a := AssertionPayloadFor(audience, AddDuration(now, -AssertionIssuedOffset), AssertionDuration);
      && c.issuedAt == UnixMillis(now) - 30_000
      && a.issuedAt == c.issuedAt + 15_000
      && c.expiresAt - c.issuedAt == 3_600_000
      && a.expiresAt - a.issuedAt == 3_600_000
  {
    var certificateAt := AddDuration(now, -CertificateIssuedOffset);
    var assertionAt := AddDuration(now, -AssertionIssuedOffset);
    MillisShift(certificateAt, CertificateIssuedOffset);
    MillisShift(certificateAt, CertificateIssuedOffset - AssertionIssuedOffset);
    MillisShift(certificateAt, CertificateDuration);
    MillisShift(assertionAt, AssertionDuration);
  }

  /** A short-lived bundle splits into a certificate for the normalized
      username, issued by the domain and signed with the mockmyid.com key,
      and an assertion issued by `127.0.0.1` for `audience` and signed with
      `key`; the certificate starts 30 000 ms before `now`, the assertion
      15 000 ms after it, and each lasts an hour. */
  lemma ShortLivedBundle(key: PrivateKey, username: string, audience: string, now: int, crypto: Crypto)
    requires SignsBelowOrder(crypto) && SignatureFits(crypto, key)
    requires now >= CertificateIssuedOffset
    ensures var r := CreateShortLivedMockMyIdAssertion(key, username, audience, now, crypto);
      r.Success? ==>
        && DecodeBundle(r.value).Some?
        && var (c, a) := DecodeBundle(r.value).value;
        && var cp := CertificatePayloadFor(key, username, AddDuration(now, -CertificateIssuedOffset),
                                           CertificateDuration);
        && var ap := AssertionPayloadFor(audience, AddDuration(now, -AssertionIssuedOffset), AssertionDuration);
        && SignedToken(c, HeaderJson(WebTokenHeader(AssertionAlgorithm)), CertificateJson(cp), MockMyIdKey(), crypto)
        && SignedToken(a, HeaderJson(WebTokenHeader(AssertionAlgorithm)), AssertionJson(ap), key, crypto)
        && cp.principal.email == NormalizeUsername(username)
        && cp.issuer == Domain && ap.issuer == AssertionIssuer && ap.audience == audience
        && cp.issuedAt == UnixMillis(now) - 30_000
        && ap.issuedAt - cp.issuedAt == 15_000
        && cp.expiresAt - cp.issuedAt == 3_600_000
        && ap.expiresAt - ap.issuedAt == 3_600_000
  {
    ShortLivedWindows(key, username, audience, now);
    MockMyIdBundleRoundTrip(key, username, audience, AddDuration(now, -CertificateIssuedOffset),
                            CertificateDuration, AddDuration(now, -AssertionIssuedOffset),
                            AssertionDuration, crypto);
  }
}

=== FILE: numerals.dfy ===
/** Positional numerals: Go's `%d` and `%x` formatting and
    `big.Int.SetString(s, 16)` as used by `stringToBig`. */
module Numerals {
  import opened Wrappers
  import opened Bytes

  /** The bases the system formats in. */
  predicate IsBase(base: nat) {
    base == 10 || base == 16
  }

  /** The lower-case digit for `d` (`%x` writes lower case). */
  function DigitChar(d: nat): (c: char)
    requires d < 16
  {
    if d < 10 then ('0' as int + d) as char else ('a' as int + d - 10) as char
  }

  /** Whether `c` is a digit of `base`; upper-case hex digits are accepted on input. */
  predicate IsDigit(c: char, base: nat)
    requires IsBase(base)
  {
    || ('0' <= c <= '9' && (c as int - '0' as int) < base)
    || (base == 16 && ('a' <= c <= 'f' || 'A' <= c <= 'F'))
  }

  function DigitValue(c: char, base: nat): (d: nat)
    requires IsBase(base) && IsDigit(c, base)
    ensures d < base
  {
    if '0' <= c <= '9' then c as int - '0' as int
    else if 'a' <= c <= 'f' then c as int - 'a' as int + 10
    else c as int - 'A' as int + 10
  }

  lemma DigitCharValue(d: nat, base: nat)
    requires IsBase(base) && d < base
    ensures IsDigit(DigitChar(d), base) && DigitValue(DigitChar(d), base) == d
  {
  }

  predicate AllDigits(s: string, base: nat)
    requires IsBase(base)
  {
    forall i :: 0 <= i < |s| ==> IsDigit(s[i], base)
  }

  /** The number a string of digits denotes, most significant first. */
  function ValueOf(s: string, base: nat): nat
    requires IsBase(base) && AllDigits(s, base)
  {
    if s == [] then 0
    else ValueOf(s[..|s| - 1], base) * base + DigitValue(s[|s| - 1], base)
  }

  /** The form `%x` and `%d` write: one or more digits, no sign, no
      upper-case letter, and a leading `'0'` only in `"0"` itself. */
  predicate CanonicalNumeral(s: string, base: nat)
    requires IsBase(base)
  {
    && |s| >= 1
    && AllDigits(s, base)
    && (forall i :: 0 <= i < |s| ==> !('A' <= s[i] <= 'Z'))
    && (s[0] == '0' ==> s == "0")
  }

  /** `n` written in `base` without leading zeros (`"0"` for zero): a
      non-empty string of lower-case digits that denotes `n`. */
  function Numeral(n: nat, base: nat): (s: string)
    requires IsBase(base)
    // The first three clauses follow from the fourth; callers use them as they stand.
    ensures |s| >= 1 && AllDigits(s, base)
    ensures forall i :: 0 <= i < |s| ==> !('A' <= s[i] <= 'Z')
    ensures s[0] == '0' ==> n == 0
    ensures CanonicalNumeral(s, base)
    ensures ValueOf(s, base) == n
    decreases n
  {
    if n < base then
      DigitCharValue(n, base);
      [DigitChar(n)]
    else
      var hi := Numeral(n / base, base);
      AppendDigit(hi, n % base, base);
      DivMod(n, base);
      hi + [DigitChar(n % base)]
  }

  /** Appending digit `d` to a numeral multiplies its value by the base and adds `d`. */
  lemma AppendDigit(hi: string, d: nat, base: nat)
    requires IsBase(base) && d < base && |hi| >= 1 && AllDigits(hi, base)
    requires forall i :: 0 <= i < |hi| ==> !('A' <= hi[i] <= 'Z')
    ensures var s := hi + [DigitChar(d)];
      && AllDigits(s, base)
      && (forall i :: 0 <= i < |s| ==> !('A' <= s[i] <= 'Z'))
      && s[0] == hi[0]
      && ValueOf(s, base) == ValueOf(hi, base) * base + d
  {
    DigitCharValue(d, base);
    var s := hi + [DigitChar(d)];
    assert s[..|s| - 1] == hi;
  }

  /** A canonical numeral is the one `Numeral` writes for its value, so
      every number has exactly one canonical numeral in each base. */
  lemma {:induction false} CanonicalIsNumeral(s: string, base: nat)
    requires IsBase(base) && CanonicalNumeral(s, base)
    ensures Numeral(ValueOf(s, base), base) == s
    decreases |s|
  {
    if |s| == 1 {
      CanonicalDigit(s, base);
    } else {
      CanonicalPrefix(s, base);
      CanonicalIsNumeral(s[..|s| - 1], base);
      CanonicalStep(s, base);
    }
  }

  /** Two canonical numerals of the same value are the same text. */
  lemma CanonicalUnique(a: string, b: string, base: nat)
    requires IsBase(base) && CanonicalNumeral(a, base) && CanonicalNumeral(b, base)
    requires ValueOf(a, base) == ValueOf(b, base)
    ensures a == b
  {
    CanonicalIsNumeral(a, base);
    CanonicalIsNumeral(b, base);
  }

  /** A one-digit canonical numeral is its own digit's numeral. */
  lemma CanonicalDigit(s: string, base: nat)
    requires IsBase(base) && CanonicalNumeral(s, base) && |s| == 1
    ensures Numeral(ValueOf(s, base), base) == s
  {
    var d := DigitValue(s[0], base);
    assert ValueOf(s, base) == 0 * base + d by { assert s[..0] == []; }
    LowerDigitChar(s[0], base);
    SingleDigit(d, base);
  }

  /** Dropping the last digit of a longer canonical numeral leaves a
      canonical numeral. */
  lemma CanonicalPrefix(s: string, base: nat)
    requires IsBase(base) && CanonicalNumeral(s, base) && |s| > 1
    ensures CanonicalNumeral(s[..|s| - 1], base) && s[0] != '0'
  {
    assert s[..|s| - 1][0] == s[0];
    assert s != "0";
  }

  /** Appending a lower-case digit to the numeral of `h` gives the numeral
      of `h * base + d`. */
  lemma CanonicalStep(s: string, base: nat)
    requires IsBase(base) && CanonicalNumeral(s, base) && |s| > 1
    requires Numeral(ValueOf(s[..|s| - 1], base), base) == s[..|s| - 1]
    ensures Numeral(ValueOf(s, base), base) == s
  {
    var hi := s[..|s| - 1];
    var last := s[|s| - 1];
    CanonicalPrefix(s, base);
    LeadingDigitPositive(hi, base);
    LowerDigitChar(last, base);
    AppendedDigit(ValueOf(s, base), ValueOf(hi, base), DigitValue(last, base), base);
    assert s == hi + [last];
  }

  lemma SingleDigit(d: nat, base: nat)
    requires IsBase(base) && d < base
    ensures Numeral(0 * base + d, base) == [DigitChar(d)]
  {
    assert 0 * base + d == d;
  }

  /** The number with digits `h` then `d` is written as `h`'s numeral then `d`. */
  lemma AppendedDigit(v: nat, h: nat, d: nat, base: nat)
    requires IsBase(base) && h >= 1 && d < base && v == h * base + d
    ensures Numeral(v, base) == Numeral(h, base) + [DigitChar(d)]
  {
    DivModOf(v, h, d, base);
  }

  /** Division by the base undoes appending a digit. */
  lemma DivModOf(v: nat, h: nat, d: nat, base: nat)
    requires IsBase(base) && h >= 1 && d < base && v == h * base + d
    ensures v >= base && v / base == h && v % base == d
  {
    if base == 10 {
      assert v == h * 10 + d;
    } else {
      assert v == h * 16 + d;
    }
  }

  /** A lower-case digit is the digit `DigitChar` writes for its value. */
  lemma LowerDigitChar(c: char, base: nat)
    requires IsBase(base) && IsDigit(c, base) && !('A' <= c <= 'Z')
    ensures DigitChar(DigitValue(c, base)) == c
  {
  }

  /** A numeral that does not start with `'0'` denotes a positive number. */
  lemma LeadingDigitPositive(s: string, base: nat)
    requires IsBase(base) && AllDigits(s, base) && |s| >= 1 && s[0] != '0'
    ensures ValueOf(s, base) >= 1
  {
    ValueOfLower(s, base);
    MulMonotone(1, DigitValue(s[0], base), Pow(base, |s| - 1));
  }

  lemma DivMod(n: nat, base: nat)
    requires IsBase(base) && n >= base
    ensures (n / base) * base + n % base == n && n / base >= 1
  {
  }

  /** `fmt.Sprintf("%x", n)` for a non-negative `*big.Int`: the canonical
      lower-case hex numeral of `n`. */
  function Hex(n: nat): (s: string)
    ensures CanonicalNumeral(s, 16) && ValueOf(s, 16) == n
  {
    Numeral(n, 16)
  }

  /** `fmt.Sprintf("%d", n)`, also the form `encoding/json` writes an `int64`
      in: the canonical decimal numeral of `|n|`, after a `-` when `n` is
      negative. */
  function Decimal(n: int): (s: string)
    ensures n >= 0 ==> CanonicalNumeral(s, 10) && ValueOf(s, 10) == n
    ensures n < 0 ==> |s| >= 2 && s[0] == '-' && CanonicalNumeral(s[1..], 10) && ValueOf(s[1..], 10) == -n
  {
    if n < 0 then
      var digits := Numeral(-n, 10);
      assert ("-" + digits)[1..] == digits;
      "-" + digits
    else Numeral(n, 10)
  }

  /** Signed numeral: an optional sign followed by one or more digits.
      `None` when `s` is not of that form. */
  function ParseSigned(s: string, base: nat): (r: Option<int>)
    requires IsBase(base)
    ensures r.Some? <==>
      (exists k :: 0 <= k <= 1 && k < |s| && AllDigits(s[k..], base) && (k == 1 <==> s[0] in "+-"))
    ensures r.Some? ==>
      && |s| >= 1
      && (if s[0] in "+-" then
            AllDigits(s[1..], base)
            && r.value == (if s[0] == '-' then -(ValueOf(s[1..], base) as int) else ValueOf(s[1..], base))
          else
            AllDigits(s, base) && r.value == ValueOf(s, base))
  {
    if |s| >= 2 && s[0] in "+-" && AllDigits(s[1..], base) then
      var v: int := ValueOf(s[1..], base);
      Some(if s[0] == '-' then -v else v)
    else if |s| >= 1 && s[0] !in "+-" && AllDigits(s, base) then
      assert s[0..] == s;
      Some(ValueOf(s, base))
    else
      None
  }

  /** `stringToBig`: `big.Int.SetString(s, 16)`. Its result is unspecified
      when `s` is not a hex numeral, which `None` stands for. */
  function StringToBig(s: string): Option<int> {
    ParseSigned(s, 16)
  }

  /** The value parsed from `%x` output is the number formatted. */
  lemma HexRoundTrip(n: nat)
    ensures StringToBig(Hex(n)) == Some(n)
  {
    var s := Hex(n);
    assert s[0] !in "+-";
    assert s[0..] == s;
  }

  /** A string of hex digits alone, with no sign, reads as the number it denotes. */
  lemma UnsignedHex(s: string)
    requires AllDigits(s, 16) && |s| >= 1
    ensures StringToBig(s) == Some(ValueOf(s, 16))
  {
    assert IsDigit(s[0], 16);
    assert s[0..] == s;
  }

  /** `%d` output reads back as the same integer. */
  lemma DecimalRoundTrip(n: int)
    ensures ParseSigned(Decimal(n), 10) == Some(n)
  {
    var s := Decimal(n);
    if n < 0 {
      var m := Numeral(-n, 10);
      assert s[1..] == m;
    } else {
      assert s[0] !in "+-";
    }
  }

  /** Every value below `base^|s|`. */
  lemma {:induction false} ValueOfUpper(s: string, base: nat)
    requires IsBase(base) && AllDigits(s, base)
    ensures ValueOf(s, base) < Pow(base, |s|)
  {
    if s != [] {
      ValueOfUpper(s[..|s| - 1], base);
    }
  }

  /** A numeral whose leading digit is `d` is at least `d * base^(|s|-1)`. */
  lemma {:induction false} ValueOfLower(s: string, base: nat)
    requires IsBase(base) && AllDigits(s, base) && |s| >= 1
    ensures DigitValue(s[0], base) * Pow(base, |s| - 1) <= ValueOf(s, base)
  {
    if |s| > 1 {
      var t := s[..|s| - 1];
      assert t[0] == s[0];
      ValueOfLower(t, base);
      assert Pow(base, |s| - 1) == base * Pow(base, |t| - 1);
      ScaleStep(DigitValue(s[0], base), Pow(base, |t| - 1), ValueOf(t, base), base,
                DigitValue(s[|s| - 1], base));
    }
  }

  lemma ScaleStep(d: nat, p: nat, v: nat, base: nat, last: nat)
    requires d * p <= v
    ensures d * (base * p) <= v * base + last
  {
    MulMonotone(d * p, v, base);
    assert d * (base * p) == (d * p) * base;
  }


  /** A hex numeral of `len` digits whose first digit is at least 8 lies in
      `[2^(4*len-1), 2^(4*len))`. */
  lemma HexRange(s: string, len: nat)
    requires AllDigits(s, 16) && |s| == len && len >= 1
    requires DigitValue(s[0], 16) >= 8
    ensures Pow(2, 4 * len - 1) <= ValueOf(s, 16) < Pow(2, 4 * len)
  {
    var v := ValueOf(s, 16);
    var p := Pow(16, len - 1);
    var d := DigitValue(s[0], 16);
    assert v < Pow(2, 4 * len) by {
      ValueOfUpper(s, 16);
      PowSixteen(len);
    }
    assert Pow(2, 4 * len - 1) == 8 * p by {
      PowSixteen(len - 1);
      PowTwoStep(4 * len - 4);
    }
    assert 8 * p <= v by {
      ValueOfLower(s, 16);
      MulMonotone(8, d, p);
    }
  }

  /** Such a numeral has exactly `4 * len` bits. */
  lemma HexBitLength(s: string, len: nat)
    requires AllDigits(s, 16) && |s| == len && len >= 1
    requires DigitValue(s[0], 16) >= 8
    ensures BitLen(ValueOf(s, 16)) == 4 * len
  {
    HexRange(s, len);
    BitLenBounds(ValueOf(s, 16), 4 * len);
  }

  lemma MulMonotone(a: nat, b: nat, c: nat)
    requires a <= b
    ensures a * c <= b * c
  {
  }

  lemma PowTwoStep(k: nat)
    ensures Pow(2, k + 3) == 8 * Pow(2, k)
    ensures Pow(2, k + 4) == 16 * Pow(2, k)
  {
    calc {
      Pow(2, k + 4);
      2 * Pow(2, k + 3);
      2 * (2 * Pow(2, k + 2));
      2 * (2 * (2 * Pow(2, k + 1)));
      2 * (2 * (2 * (2 * Pow(2, k))));
    }
  }

  lemma {:induction false} PowSixteen(k: nat)
    ensures Pow(16, k) == Pow(2, 4 * k)
  {
    if k > 0 {
      PowSixteen(k - 1);
      PowTwoStep(4 * k - 4);
    }
  }

  lemma {:induction false} PowByte(k: nat)
    ensures Pow(256, k) == Pow(2, 8 * k)
  {
    if k > 0 {
      PowByte(k - 1);
      PowTwoStep(8 * k - 8);
      PowTwoStep(8 * k - 4);
    }
  }

  /** Concatenated digit strings are digit strings. */
  lemma AllDigitsAppend(a: string, b: string, base: nat)
    requires IsBase(base) && AllDigits(a, base) && AllDigits(b, base)
    ensures AllDigits(a + b, base)
  {
    assert forall i :: 0 <= i < |b| ==> (a + b)[|a| + i] == b[i];
  }
}

=== FILE: text.dfy ===
/** String helpers: suffix tests, and splitting and joining on a one-character
    separator (`.` between token segments, `~` between bundled tokens). */
module Text {

  /** `strings.HasSuffix(s, suffix)`. */
  predicate EndsWith(s: string, suffix: string) {
    |suffix| <= |s| && s[|s| - |suffix|..] == suffix
  }

  /** Number of occurrences of `c` in `s`. */
  function Count(s: string, c: char): nat
  {
    if s == [] then 0 else (if s[0] == c then 1 else 0) + Count(s[1..], c)
  }

  lemma {:induction false} CountAppend(a: string, b: string, c: char)
    ensures Count(a + b, c) == Count(a, c) + Count(b, c)
  {
    if a != [] {
      assert (a + b)[0] == a[0];
      assert (a + b)[1..] == a[1..] + b;
      CountAppend(a[1..], b, c);
    } else {
      assert a + b == b;
    }
  }

  lemma {:induction false} CountAbsent(s: string, c: char)
    requires c !in s
    ensures Count(s, c) == 0
  {
    if s != [] {
      CountAbsent(s[1..], c);
    }
  }

  /** The parts separated by `sep`, in order. */
  function Join(parts: seq<string>, sep: char): (s: string)
    requires |parts| >= 1
  {
    if |parts| == 1 then parts[0] else parts[0] + [sep] + Join(parts[1..], sep)
  }

  /** A character in none of three parts, other than the separator, is not in their join. */
  lemma AbsentFromThree(a: string, b: string, c: string, sep: char, x: char)
    requires x !in a && x !in b && x !in c && x != sep
    ensures x !in a + [sep] + b + [sep] + c
  {
  }

  lemma JoinThree(a: string, b: string, c: string, sep: char)
    ensures Join([a, b, c], sep) == a + [sep] + b + [sep] + c
  {
    assert [a, b, c][1..] == [b, c];
    assert [b, c][1..] == [c];
    assert Join([b, c], sep) == b + [sep] + c;
    assert Join([a, b, c], sep) == a + [sep] + (b + [sep] + c);
  }

  lemma JoinTwo(a: string, b: string, sep: char)
    ensures Join([a, b], sep) == a + [sep] + b
  {
    assert [a, b][1..] == [b];
  }

  /** Position of the first `c` in `s`. */
  function IndexOf(s: string, c: char): (i: nat)
    requires c in s
    ensures i < |s| && s[i] == c && c !in s[..i]
  {
    if s[0] == c then 0 else
      assert c in s[1..];
      var j := IndexOf(s[1..], c);
      assert s[..j + 1] == [s[0]] + s[1..][..j];
      1 + j
  }

  /** The reader's side of `Join`: the maximal pieces of `s` free of `sep`,
      as a verifier splits a token or bundle. Joining the pieces again gives
      back `s`. */
  function Split(s: string, sep: char): (parts: seq<string>)
    ensures |parts| >= 1
    ensures forall i :: 0 <= i < |parts| ==> sep !in parts[i]
    ensures Join(parts, sep) == s
    decreases |s|
  {
    if sep !in s then [s] else
      var i := IndexOf(s, sep);
      var rest := Split(s[i + 1..], sep);
      var parts := [s[..i]] + rest;
      assert parts[1..] == rest;
      assert s == s[..i] + [sep] + s[i + 1..];
      parts
  }

  /** Joining pieces that do not contain the separator and splitting again
      gives back exactly those pieces. */
  lemma {:induction false} SplitJoin(parts: seq<string>, sep: char)
    requires |parts| >= 1
    requires forall i :: 0 <= i < |parts| ==> sep !in parts[i]
    ensures Split(Join(parts, sep), sep) == parts
    decreases |parts|
  {
    if |parts| > 1 {
      var s := Join(parts, sep);
      var rest := Join(parts[1..], sep);
      assert s == parts[0] + [sep] + rest;
      assert sep in s by { assert s[|parts[0]|] == sep; }
      var i := IndexOf(s, sep);
      assert i == |parts[0]|;
      assert s[..i] == parts[0];
      assert s[i + 1..] == rest;
      SplitJoin(parts[1..], sep);
      assert Split(s, sep) == [parts[0]] + parts[1..];
    }
  }

  /** `a`, a separator, then `b` starts with `a` followed by the separator. */
  lemma SeparatedPrefix(a: string, b: string, sep: char)
    ensures |a + [sep] + b| > |a|
    ensures (a + [sep] + b)[..|a|] == a && (a + [sep] + b)[|a|] == sep
  {
    assert (a + [sep] + b)[..|a|] == a;
  }

  /** Two separator-free pieces joined by one separator split back into
      those two pieces, around the one separator. */
  lemma SplitTwo(a: string, b: string, sep: char)
    requires sep !in a && sep !in b
    ensures Split(a + [sep] + b, sep) == [a, b]
    ensures Count(a + [sep] + b, sep) == 1
  {
    JoinTwo(a, b, sep);
    SplitJoin([a, b], sep);
    CountJoin([a, b], sep);
  }

  /** `|parts| - 1` separators occur in a join of separator-free pieces. */
  lemma {:induction false} CountJoin(parts: seq<string>, sep: char)
    requires |parts| >= 1
    requires forall i :: 0 <= i < |parts| ==> sep !in parts[i]
    ensures Count(Join(parts, sep), sep) == |parts| - 1
    decreases |parts|
  {
    CountAbsent(parts[0], sep);
    if |parts| > 1 {
      CountJoin(parts[1..], sep);
      CountAppend(parts[0] + [sep], Join(parts[1..], sep), sep);
      CountAppend(parts[0], [sep], sep);
      assert Count([sep], sep) == 1 by {
        assert [sep][1..] == [];
      }
    }
  }
}

=== FILE: utf8.dfy ===
/** UTF-8, the byte form in which Go holds strings: `json.Marshal` output and
    the token message are hashed and base64-encoded as UTF-8 bytes. */
module Utf8 {
  import opened Wrappers
  import opened Bytes

  /** The bytes of one scalar value, 1 to 4 of them. */
  function EncodeChar(c: char): (bs: seq<byte>)
    ensures 1 <= |bs| <= 4
    ensures (c as int < 0x80) <==> |bs| == 1
    ensures |bs| == 1 ==> bs[0] == c as int
  {
    var v := c as int;
    if v < 0x80 then [v]
    else if v < 0x800 then [0xC0 + v / 64, 0x80 + v % 64]
    else if v < 0x10000 then [0xE0 + v / 4096, 0x80 + (v / 64) % 64, 0x80 + v % 64]
    else [0xF0 + v / 262144, 0x80 + (v / 4096) % 64, 0x80 + (v / 64) % 64, 0x80 + v % 64]
  }

  function Encode(s: string): (bs: seq<byte>)
    ensures |bs| >= |s|
  {
    if s == [] then [] else EncodeChar(s[0]) + Encode(s[1..])
  }

  predicate IsContinuation(b: byte) {
    0x80 <= b < 0xC0
  }

  /** The six value bits a continuation byte carries. */
  function Payload(b: byte): int {
    b - 0x80
  }

  predicate IsScalar(v: int) {
    0 <= v < 0xD800 || 0xE000 <= v < 0x11_0000
  }

  /** The scalar value at the front of `bs` and the number of bytes it takes;
      `None` for a malformed, overlong or surrogate sequence. */
  function DecodeChar(bs: seq<byte>): (r: Option<(char, nat)>)
    requires |bs| >= 1
    ensures r.Some? ==> 1 <= r.value.1 <= |bs|
  {
    var b0: int := bs[0];
    if b0 < 0x80 then
      Some((b0 as char, 1))
    else if 0xC0 <= b0 < 0xE0 && |bs| >= 2 && IsContinuation(bs[1]) then
      var v := (b0 - 0xC0) * 64 + Payload(bs[1]);
      if 0x80 <= v then Some((v as char, 2)) else None
    else if 0xE0 <= b0 < 0xF0 && |bs| >= 3 && IsContinuation(bs[1]) && IsContinuation(bs[2]) then
      var v := (b0 - 0xE0) * 4096 + Payload(bs[1]) * 64 + Payload(bs[2]);
      if 0x800 <= v && IsScalar(v) then Some((v as char, 3)) else None
    else if 0xF0 <= b0 < 0xF8 && |bs| >= 4 && IsContinuation(bs[1]) && IsContinuation(bs[2])
            && IsContinuation(bs[3]) then
      var v := (b0 - 0xF0) * 262144 + Payload(bs[1]) * 4096 + Payload(bs[2]) * 64 + Payload(bs[3]);
      if 0x1_0000 <= v < 0x11_0000 then Some((v as char, 4)) else None
    else
      None
  }

  /** The string a well-formed UTF-8 byte sequence holds. */
  function Decode(bs: seq<byte>): Option<string>
    decreases |bs|
  {
    if bs == [] then Some([]) else
      match DecodeChar(bs)
      case None => None
      case Some((c, n)) =>
        match Decode(bs[n..])
        case None => None
        case Some(rest) => Some([c] + rest)
  }

  lemma SplitSix(v: nat)
    ensures v == (v / 64) * 64 + v % 64
    ensures 0x80 + v % 64 < 0xC0
  {
  }

  lemma CharRoundTrip(c: char, rest: seq<byte>)
    ensures DecodeChar(EncodeChar(c) + rest) == Some((c, |EncodeChar(c)|))
  {
    var v := c as int;
    if v < 0x80 {
    } else if v < 0x800 {
      TwoByteRoundTrip(c, rest);
    } else if v < 0x10000 {
      ThreeByteRoundTrip(c, rest);
    } else {
      FourByteRoundTrip(c, rest);
    }
  }

  lemma TwoByteRoundTrip(c: char, rest: seq<byte>)
    requires 0x80 <= c as int < 0x800
    ensures DecodeChar(EncodeChar(c) + rest) == Some((c, 2))
  {
    var v := c as int;
    var bs := EncodeChar(c) + rest;
    assert bs[0] == 0xC0 + v / 64 && bs[1] == 0x80 + v % 64;
    SplitSix(v);
  }

  lemma ThreeByteRoundTrip(c: char, rest: seq<byte>)
    requires 0x800 <= c as int < 0x10000
    ensures DecodeChar(EncodeChar(c) + rest) == Some((c, 3))
  {
    var v := c as int;
    var bs := EncodeChar(c) + rest;
    assert bs[0] == 0xE0 + v / 4096 && bs[1] == 0x80 + (v / 64) % 64 && bs[2] == 0x80 + v % 64;
    SplitSix(v);
    SplitSix(v / 64);
    assert v / 4096 == (v / 64) / 64;
  }

  lemma FourByteRoundTrip(c: char, rest: seq<byte>)
    requires 0x10000 <= c as int
    ensures DecodeChar(EncodeChar(c) + rest) == Some((c, 4))
  {
    var v := c as int;
    var bs := EncodeChar(c) + rest;
    assert bs[0] == 0xF0 + v / 262144 && bs[1] == 0x80 + (v / 4096) % 64;
    assert bs[2] == 0x80 + (v / 64) % 64 && bs[3] == 0x80 + v % 64;
    SplitSix(v);
    SplitSix(v / 64);
    SplitSix(v / 4096);
    assert v / 4096 == (v / 64) / 64;
    assert v / 262144 == (v / 4096) / 64;
  }

  /** Decoding the UTF-8 form of a string gives the string back. */
  lemma {:induction false} RoundTrip(s: string)
    ensures Decode(Encode(s)) == Some(s)
  {
    if s != [] {
      var head := EncodeChar(s[0]);
      var bs := Encode(s);
      assert bs == head + Encode(s[1..]);
      CharRoundTrip(s[0], Encode(s[1..]));
      assert bs[|head|..] == Encode(s[1..]);
      RoundTrip(s[1..]);
      assert [s[0]] + s[1..] == s;
    }
  }
}

=== FILE: webtoken.dfy ===
/** The web-token encoder (webtoken.go): certificate and assertion payloads,
    the `header.payload.signature` token and the `certificate~assertion` bundle.
    SHA-1 and `dsa.Sign` are not modelled; they arrive as the `Crypto`
    parameter. Its promise is that signature halves lie below the signing
    key's subgroup order `Q`. As a function, its `sign` is deterministic:
    the random nonce `dsa.Sign` draws is folded into it. */
module WebToken {
  import opened Wrappers
  import opened Bytes
  import opened Numerals
  import opened Text
  import Utf8
  import Base64
  import opened Json

  // ---------------------------------------------------------------------
  // Keys, signatures and the cryptography left abstract

  /** `dsa.Parameters`: prime modulus `p`, subgroup order `q`, generator `g`. */
  datatype Parameters = Parameters(p: nat, q: nat, g: nat)

  /** `dsa.PublicKey`. */
  datatype PublicKey = PublicKey(parameters: Parameters, y: nat)

  /** `dsa.PrivateKey`: the public key and the private exponent `x`. */
  datatype PrivateKey = PrivateKey(publicKey: PublicKey, x: nat)

  /** The error `dsa.Sign` reports. */
  datatype Error = SignError(reason: string)

  /** The pair `(r, s)` returned by `dsa.Sign`. */
  datatype Signature = Signature(r: nat, s: nat)

  /** The digest (SHA-1 over the message bytes) and signing (`dsa.Sign`)
      operations, supplied from outside the model. `sign` fixes one result
      per key and digest, where `dsa.Sign` draws a fresh nonce per call. */
  datatype Crypto = Crypto(
    digest: seq<byte> -> seq<byte>,
    sign: (PrivateKey, seq<byte>) -> Result<Signature, Error>)

  /** What DSA guarantees of a signature: both halves lie below `Q`. */
  ghost predicate SignsBelowOrder(crypto: Crypto) {
    forall key: PrivateKey, digest: seq<byte> :: crypto.sign(key, digest).Success? ==>
      crypto.sign(key, digest).value.r < key.publicKey.parameters.q &&
      crypto.sign(key, digest).value.s < key.publicKey.parameters.q
  }

  /** Bytes per signature half, and the signature buffer length. */
  const HalfLength: nat := 20
  const SignatureLength: nat := 40

  /** Whether every signature `crypto` makes with `key` has halves whose
      `Bytes()` fit in 20 bytes. This rules out two behaviours of the buffer
      copies: an `r` over 20 bytes makes the first copy's slice panic, and an
      `s` of 21 to 40 bytes starts the second copy inside `r`'s slot and
      silently overwrites its last bytes (only an `s` over 40 bytes panics). */
  ghost predicate SignatureFits(crypto: Crypto, key: PrivateKey) {
    forall digest: seq<byte> :: crypto.sign(key, digest).Success? ==>
      |ToBytes(crypto.sign(key, digest).value.r)| <= HalfLength &&
      |ToBytes(crypto.sign(key, digest).value.s)| <= HalfLength
  }

  /** A signing key whose `Q` is at most 160 bits makes signatures that fit. */
  lemma OrderBoundFits(crypto: Crypto, key: PrivateKey)
    requires SignsBelowOrder(crypto)
    requires key.publicKey.parameters.q <= Pow(256, HalfLength)
    ensures SignatureFits(crypto, key)
  {
    forall digest: seq<byte> | crypto.sign(key, digest).Success?
      ensures |ToBytes(crypto.sign(key, digest).value.r)| <= HalfLength
      ensures |ToBytes(crypto.sign(key, digest).value.s)| <= HalfLength
    {
      var sig := crypto.sign(key, digest).value;
      ToBytesLength(sig.r, HalfLength);
      ToBytesLength(sig.s, HalfLength);
    }
  }

  // ---------------------------------------------------------------------
  // Payload records

  /** Nanoseconds in a millisecond (`time.Millisecond`). */
  const Millisecond: nat := 1_000_000

  /** `t.UnixNano() / int64(time.Millisecond)` for an instant `t` given in
      nanoseconds since the epoch: Go's integer division truncates toward zero. */
  function UnixMillis(t: int): (ms: int)
    ensures t >= 0 ==> ms >= 0 && ms * Millisecond <= t < ms * Millisecond + Millisecond
    ensures t < 0 ==> ms <= 0 && ms * Millisecond - Millisecond < t <= ms * Millisecond
  {
    if t >= 0 then t / Millisecond else -((-t) / Millisecond)
  }

  /** `t.Add(d)`: the instant `d` nanoseconds after `t`. */
  function AddDuration(t: int, d: int): int {
    t + d
  }

  /** Shifting a non-negative instant by a whole number of milliseconds,
      staying non-negative, shifts its millisecond timestamp by that number. */
  lemma MillisShift(t: int, d: int)
    requires t >= 0 && t + d >= 0 && d % Millisecond == 0
    ensures UnixMillis(t + d) - UnixMillis(t) == d / Millisecond
  {
    var k := d / Millisecond;
    assert d == k * Millisecond;
    assert (t + k * Millisecond) / Millisecond == t / Millisecond + k;
  }

  datatype CertificatePrincipal = CertificatePrincipal(email: string)

  datatype CertificatePublicKey =
    CertificatePublicKey(algorithm: string, y: string, p: string, q: string, g: string)

  datatype CertificatePayload = CertificatePayload(
    principal: CertificatePrincipal,
    publicKey: CertificatePublicKey,
    issuer: string,
    issuedAt: int,
    audience: string,
    expiresAt: int)

  datatype AssertionPayload =
    AssertionPayload(issuer: string, issuedAt: int, expiresAt: int, audience: string)

  datatype WebTokenHeader = WebTokenHeader(algorithm: string)

  /** `NewCertificatePublicKey`: the algorithm `"DS"` and the public numbers
      in `%x` form: canonical lower-case hex, each reading back as the
      number it came from. */
  function NewCertificatePublicKey(key: PrivateKey): (r: CertificatePublicKey)
    ensures r.algorithm == "DS"
    ensures CanonicalNumeral(r.y, 16) && CanonicalNumeral(r.p, 16)
    ensures CanonicalNumeral(r.q, 16) && CanonicalNumeral(r.g, 16)
    ensures StringToBig(r.y) == Some(key.publicKey.y)
    ensures StringToBig(r.p) == Some(key.publicKey.parameters.p)
    ensures StringToBig(r.q) == Some(key.publicKey.parameters.q)
    ensures StringToBig(r.g) == Some(key.publicKey.parameters.g)
  {
    var params := key.publicKey.parameters;
    HexRoundTrip(key.publicKey.y);
    HexRoundTrip(params.p);
    HexRoundTrip(params.q);
    HexRoundTrip(params.g);
    CertificatePublicKey("DS", Hex(key.publicKey.y), Hex(params.p), Hex(params.q), Hex(params.g))
  }

  /** The certificate's `y` text is the only canonical hex numeral of the
      public number: a verifier comparing text sees exactly `%x` output. */
  lemma PublicKeyTextUnique(key: PrivateKey, t: string)
    requires CanonicalNumeral(t, 16) && ValueOf(t, 16) == key.publicKey.y
    ensures t == NewCertificatePublicKey(key).y
  {
    var r := NewCertificatePublicKey(key);
    HexRoundTrip(key.publicKey.y);
    CanonicalUnique(t, r.y, 16);
  }

  /** The certificate's public key depends only on the public half of the
      key: two keys that differ in the private exponent alone give the same record. */
  lemma PublicKeyOmitsPrivate(a: PrivateKey, b: PrivateKey)
    requires a.publicKey == b.publicKey
    ensures NewCertificatePublicKey(a) == NewCertificatePublicKey(b)
  {
  }

  /** `NewCertificatePayload`: the audience is left empty and both instants
      become millisecond timestamps. */
  function NewCertificatePayload(key: PrivateKey, email: string, issuer: string,
                                 issuedAt: int, expiresAt: int): (r: CertificatePayload)
    ensures r.principal.email == email && r.issuer == issuer && r.audience == ""
    ensures r.publicKey == NewCertificatePublicKey(key)
    ensures r.issuedAt == UnixMillis(issuedAt) && r.expiresAt == UnixMillis(expiresAt)
  {
    CertificatePayload(CertificatePrincipal(email), NewCertificatePublicKey(key),
                       issuer, UnixMillis(issuedAt), "", UnixMillis(expiresAt))
  }

  /** `NewAssertionPayload`; the source never returns an error from it. */
  function NewAssertionPayload(issuer: string, issuedAt: int, expiresAt: int,
                               audience: string): (r: AssertionPayload)
    ensures r.issuer == issuer && r.audience == audience
    ensures r.issuedAt == UnixMillis(issuedAt) && r.expiresAt == UnixMillis(expiresAt)
  {
    AssertionPayload(issuer, UnixMillis(issuedAt), UnixMillis(expiresAt), audience)
  }

  /** A payload made for a validity window of whole milliseconds, starting at
      a non-negative instant, spans exactly that many milliseconds. */
  lemma PayloadWindow(key: PrivateKey, email: string, issuer: string, audience: string,
                      issuedAt: int, duration: int)
    requires issuedAt >= 0 && issuedAt + duration >= 0 && duration % Millisecond == 0
    ensures var c := NewCertificatePayload(key, email, issuer, issuedAt, issuedAt + duration);
      c.expiresAt - c.issuedAt == duration / Millisecond
    ensures var a := NewAssertionPayload(issuer, issuedAt, issuedAt + duration, audience);
      a.expiresAt - a.issuedAt == duration / Millisecond
  {
    MillisShift(issuedAt, duration);
  }

  // ---------------------------------------------------------------------
  // JSON forms, members in struct declaration order

  function HeaderJson(h: WebTokenHeader): Value {
    Object([Member("alg", Str(h.algorithm))])
  }

  function PublicKeyJson(k: CertificatePublicKey): Value {
    Object([Member("algorithm", Str(k.algorithm)), Member("y", Str(k.y)), Member("p", Str(k.p)),
            Member("q", Str(k.q)), Member("g", Str(k.g))])
  }

  function CertificateJson(c: CertificatePayload): Value {
    Object([
      Member("principal", Object([Member("email", Str(c.principal.email))])),
      Member("public-key", PublicKeyJson(c.publicKey)),
      Member("iss", Str(c.issuer)),
      Member("iat", Int(c.issuedAt)),
      Member("aud", Str(c.audience)),
      Member("exp", Int(c.expiresAt))])
  }

  function AssertionJson(a: AssertionPayload): Value {
    Object([
      Member("iss", Str(a.issuer)),
      Member("iat", Int(a.issuedAt)),
      Member("exp", Int(a.expiresAt)),
      Member("aud", Str(a.audience))])
  }

  /** The certificate object lists its members as the struct declares them,
      and its public key has no member for the private exponent. */
  lemma CertificateFieldOrder(c: CertificatePayload)
    ensures Keys(CertificateJson(c).members) == ["principal", "public-key", "iss", "iat", "aud", "exp"]
    ensures Keys(PublicKeyJson(c.publicKey).members) == ["algorithm", "y", "p", "q", "g"]
  {
  }

  lemma AssertionFieldOrder(a: AssertionPayload)
    ensures Keys(AssertionJson(a).members) == ["iss", "iat", "exp", "aud"]
  {
  }

  /** `json.Marshal`: the UTF-8 bytes of the serialized value. */
  function Marshal(v: Value): seq<byte> {
    Utf8.Encode(Serialize(v))
  }

  // ---------------------------------------------------------------------
  // The header algorithm tag

  /** `(P.BitLen()+7)/8`: bytes needed for the modulus. */
  function ModulusBytes(key: PrivateKey): nat {
    (BitLen(key.publicKey.parameters.p) + 7) / 8
  }

  /** The certificate header tag `fmt.Sprintf("DS%d", ...)`: `"DS"`
      followed by the canonical decimal numeral of the modulus byte length. */
  function CertificateAlgorithm(key: PrivateKey): (alg: string)
    ensures |alg| > 2 && alg[..2] == "DS"
    ensures CanonicalNumeral(alg[2..], 10)
    ensures ParseSigned(alg[2..], 10) == Some(ModulusBytes(key))
  {
    var alg := "DS" + Decimal(ModulusBytes(key));
    assert alg[2..] == Decimal(ModulusBytes(key));
    DecimalRoundTrip(ModulusBytes(key));
    alg
  }

  /** The certificate tag is the only `"DS"` + canonical-decimal text for the
      modulus byte length, so a verifier matching the literal tag sees it. */
  lemma CertificateAlgorithmUnique(key: PrivateKey, t: string)
    requires CanonicalNumeral(t, 10) && ValueOf(t, 10) == ModulusBytes(key)
    ensures CertificateAlgorithm(key) == "DS" + t
  {
    var alg := CertificateAlgorithm(key);
    assert alg[2..] == Decimal(ModulusBytes(key));
    CanonicalUnique(t, alg[2..], 10);
    assert alg == alg[..2] + alg[2..];
  }

  /** The tag assertions use, regardless of the signing key. */
  const AssertionAlgorithm: string := "DS128"

  /** For a 1024-bit modulus the computed certificate tag is the tag that
      assertions hard-code. */
  lemma Modulus1024Tag(key: PrivateKey)
    requires BitLen(key.publicKey.parameters.p) == 1024
    ensures CertificateAlgorithm(key) == AssertionAlgorithm
  {
    assert ModulusBytes(key) == 128;
    DecimalOf128();
  }

  lemma DecimalOf128()
    ensures Decimal(128) == "128"
  {
    assert Numeral(1, 10) == "1";
    assert Numeral(12, 10) == "12";
  }


  // ---------------------------------------------------------------------
  // The signature buffer

  /** Go's `copy(buf[at:], src)` where `src` fits: `src` overwrites the
      bytes from `at` on. */
  function CopyAt(buf: seq<byte>, at: nat, src: seq<byte>): (r: seq<byte>)
    requires at + |src| <= |buf|
    ensures |r| == |buf|
    ensures forall i :: 0 <= i < |buf| ==> r[i] == if at <= i < at + |src| then src[i - at] else buf[i]
  {
    buf[..at] + src + buf[at + |src|..]
  }

  /** Two byte strings of at most 20 bytes copied to end at byte 20 and at
      byte 40 of a zeroed 40-byte buffer. */
  function Place(rb: seq<byte>, sb: seq<byte>): (buf: seq<byte>)
    requires |rb| <= HalfLength && |sb| <= HalfLength
    ensures |buf| == SignatureLength
    ensures buf[..HalfLength] == Zeros(HalfLength - |rb|) + rb
    ensures buf[HalfLength..] == Zeros(HalfLength - |sb|) + sb
    ensures buf[HalfLength - |rb|..HalfLength] == rb && buf[SignatureLength - |sb|..] == sb
    ensures forall i :: 0 <= i < HalfLength - |rb| ==> buf[i] == 0
    ensures forall i :: HalfLength <= i < SignatureLength - |sb| ==> buf[i] == 0
  {
    var buf := CopyAt(CopyAt(Zeros(SignatureLength), HalfLength - |rb|, rb), SignatureLength - |sb|, sb);
    var lo, hi := Zeros(HalfLength - |rb|) + rb, Zeros(HalfLength - |sb|) + sb;
    assert forall i :: 0 <= i < HalfLength ==> buf[..HalfLength][i] == lo[i];
    assert forall i :: 0 <= i < HalfLength ==> buf[HalfLength..][i] == hi[i];
    assert forall i :: 0 <= i < |rb| ==> buf[HalfLength - |rb|..HalfLength][i] == rb[i];
    assert forall i :: 0 <= i < |sb| ==> buf[SignatureLength - |sb|..][i] == sb[i];
    buf
  }

  /** The 40-byte buffer: `r.Bytes()` copied to end at byte 20 and `s.Bytes()`
      to end at byte 40, into a zeroed buffer. Each half reads back big-endian
      as its number, and every byte ahead of a number's first byte is zero. */
  function SignatureBytes(r: nat, s: nat): (buf: seq<byte>)
    requires |ToBytes(r)| <= HalfLength && |ToBytes(s)| <= HalfLength
    ensures |buf| == SignatureLength
    ensures FromBytes(buf[..HalfLength]) == r && FromBytes(buf[HalfLength..]) == s
    ensures buf[HalfLength - |ToBytes(r)|..HalfLength] == ToBytes(r)
    ensures buf[SignatureLength - |ToBytes(s)|..] == ToBytes(s)
    ensures forall i :: 0 <= i < HalfLength - |ToBytes(r)| ==> buf[i] == 0
    ensures forall i :: HalfLength <= i < SignatureLength - |ToBytes(s)| ==> buf[i] == 0
  {
    var rb, sb := ToBytes(r), ToBytes(s);
    var buf := Place(rb, sb);
    LeadingZeros(HalfLength - |rb|, rb);
    LeadingZeros(HalfLength - |sb|, sb);
    buf
  }

  /** Reading a signature buffer: two 20-byte big-endian halves. */
  function ParseSignature(buf: seq<byte>): Option<Signature> {
    if |buf| == SignatureLength then
      Some(Signature(FromBytes(buf[..HalfLength]), FromBytes(buf[HalfLength..])))
    else None
  }

  lemma SignatureRoundTrip(r: nat, s: nat)
    requires |ToBytes(r)| <= HalfLength && |ToBytes(s)| <= HalfLength
    ensures ParseSignature(SignatureBytes(r, s)) == Some(Signature(r, s))
  {
  }

  // ---------------------------------------------------------------------
  // Tokens

  /** A JSON value as a token segment: base64 of its marshalled bytes. */
  function EncodeSegment(v: Value): string {
    Base64.Encode(Marshal(v))
  }

  /** `encodedHeader + "." + encodedPayload`: the text that is signed. */
  function Message(algorithm: string, payload: Value): string {
    EncodeSegment(HeaderJson(WebTokenHeader(algorithm))) + "." + EncodeSegment(payload)
  }

  /** The digest signed for a message: SHA-1 over its bytes. */
  function MessageDigest(crypto: Crypto, message: string): seq<byte> {
    crypto.digest(Utf8.Encode(message))
  }

  /** The common body of both `Encode` methods. Fails exactly when signing
      fails, with the signer's error; otherwise the token is the message,
      a dot, and the encoded signature buffer. */
  function EncodeToken(algorithm: string, payload: Value, signingKey: PrivateKey,
                       crypto: Crypto): (r: Result<string, Error>)
    requires SignatureFits(crypto, signingKey)
    ensures var signed := crypto.sign(signingKey, MessageDigest(crypto, Message(algorithm, payload)));
      && (r.Failure? <==> signed.Failure?)
      && (r.Failure? ==> r.error == signed.error)
  {
    var message := Message(algorithm, payload);
    var sig :- crypto.sign(signingKey, MessageDigest(crypto, message));
    var encodedSignature := Base64.Encode(SignatureBytes(sig.r, sig.s));
    Success(message + "." + encodedSignature)
  }

  /** `CertificatePayload.Encode`: the header tag comes from the signing key's modulus. */
  function EncodeCertificate(c: CertificatePayload, signingKey: PrivateKey,
                             crypto: Crypto): Result<string, Error>
    requires SignatureFits(crypto, signingKey)
  {
    EncodeToken(CertificateAlgorithm(signingKey), CertificateJson(c), signingKey, crypto)
  }

  /** `AssertionPayload.Encode`: the header tag is always `"DS128"`. */
  function EncodeAssertion(a: AssertionPayload, signingKey: PrivateKey,
                           crypto: Crypto): Result<string, Error>
    requires SignatureFits(crypto, signingKey)
  {
    EncodeToken(AssertionAlgorithm, AssertionJson(a), signingKey, crypto)
  }

  /** `CreateCertificate`: a certificate for `key`'s public half, signed
      with `signingKey`. It fails exactly when signing the certificate
      message fails, with the signer's error. */
  function CreateCertificate(key: PrivateKey, email: string, issuer: string,
                             issuedAt: int, expiresAt: int, signingKey: PrivateKey,
                             crypto: Crypto): (r: Result<string, Error>)
    requires SignatureFits(crypto, signingKey)
    ensures var message := Message(CertificateAlgorithm(signingKey),
                                   CertificateJson(NewCertificatePayload(key, email, issuer, issuedAt, expiresAt)));
      var signed := crypto.sign(signingKey, MessageDigest(crypto, message));
      && (r.Failure? <==> signed.Failure?)
      && (r.Failure? ==> r.error == signed.error)
  {
    EncodeCertificate(NewCertificatePayload(key, email, issuer, issuedAt, expiresAt), signingKey, crypto)
  }

  /** `CreateAssertion`: on success the certificate, `~`, then an assertion
      signed with `signingKey`; on failure the error and no text. */
  function CreateAssertion(signingKey: PrivateKey, certificate: string, audience: string,
                           issuer: string, issuedAt: int, expiresAt: int,
                           crypto: Crypto): (r: Result<string, Error>)
    requires SignatureFits(crypto, signingKey)
    ensures var assertion :=
      EncodeAssertion(NewAssertionPayload(issuer, issuedAt, expiresAt, audience), signingKey, crypto);
      && (r.Failure? <==> assertion.Failure?)
      && (r.Failure? ==> r.error == assertion.error)
      && (r.Success? ==> |r.value| > |certificate| && r.value[..|certificate|] == certificate
                         && r.value[|certificate|] == '~')
  {
    var payload := NewAssertionPayload(issuer, issuedAt, expiresAt, audience);
    match EncodeAssertion(payload, signingKey, crypto)
    case Failure(e) => Failure(e)
    case Success(assertion) =>
      SeparatedPrefix(certificate, assertion, '~');
      Success(certificate + "~" + assertion)
  }

  // ---------------------------------------------------------------------
  // Reading tokens back

  /** What a verifier recovers from a token: the header and payload values,
      the signature, and the text the signature is over. */
  datatype DecodedToken = DecodedToken(header: Value, payload: Value, signature: Signature,
                                       signedText: string)

  /** A JSON document carried as base64 of its UTF-8 bytes. */
  function DecodeSegment(segment: string): Option<Value> {
    match Base64.Decode(segment)
    case None => None
    case Some(bytes) =>
      match Utf8.Decode(bytes)
      case None => None
      case Some(text) => Parse(text)
  }

  /** Splits a token on `.` into exactly three segments and decodes each. */
  function DecodeToken(token: string): Option<DecodedToken> {
    var parts := Split(token, '.');
    if |parts| != 3 then None else
      match (DecodeSegment(parts[0]), DecodeSegment(parts[1]), Base64.Decode(parts[2]))
      case (Some(h), Some(p), Some(sigBytes)) =>
        (match ParseSignature(sigBytes)
         case Some(sig) => Some(DecodedToken(h, p, sig, parts[0] + "." + parts[1]))
         case None => None)
      case _ => None
  }

  /** A decoded token carries `header` and `payload` and the signature that
      `crypto.sign` gives with `key` over the token's first two segments.
      `sign` is a function, so this is the signature of the call that made
      the token. */
  predicate SignedToken(d: DecodedToken, header: Value, payload: Value, key: PrivateKey, crypto: Crypto) {
    && d.header == header
    && d.payload == payload
    && crypto.sign(key, MessageDigest(crypto, d.signedText)) == Success(d.signature)
  }

  lemma SegmentRoundTrip(v: Value)
    ensures DecodeSegment(EncodeSegment(v)) == Some(v)
  {
    Base64.RoundTrip(Marshal(v));
    Utf8.RoundTrip(Serialize(v));
    Json.RoundTrip(v);
  }

  /** A successful token is the header segment, the payload segment and the
      encoded signature buffer, joined by dots. */
  lemma TokenShape(algorithm: string, payload: Value, signingKey: PrivateKey, crypto: Crypto)
    requires SignatureFits(crypto, signingKey)
    requires EncodeToken(algorithm, payload, signingKey, crypto).Success?
    ensures var sig := crypto.sign(signingKey, MessageDigest(crypto, Message(algorithm, payload))).value;
      EncodeToken(algorithm, payload, signingKey, crypto).value ==
        Join([EncodeSegment(HeaderJson(WebTokenHeader(algorithm))), EncodeSegment(payload),
              Base64.Encode(SignatureBytes(sig.r, sig.s))], '.')
  {
    var h := EncodeSegment(HeaderJson(WebTokenHeader(algorithm)));
    var p := EncodeSegment(payload);
    var sig := crypto.sign(signingKey, MessageDigest(crypto, Message(algorithm, payload))).value;
    var e := Base64.Encode(SignatureBytes(sig.r, sig.s));
    JoinThree(h, p, e, '.');
  }

  /** Decoding three joined segments recovers the two values, the signature
      and the text of the first two segments; the token has two dots. */
  lemma DecodeJoined(header: Value, payload: Value, sig: Signature)
    requires |ToBytes(sig.r)| <= HalfLength && |ToBytes(sig.s)| <= HalfLength
    ensures var h, p := EncodeSegment(header), EncodeSegment(payload);
      var token := Join([h, p, Base64.Encode(SignatureBytes(sig.r, sig.s))], '.');
      && Count(token, '.') == 2
      && DecodeToken(token) == Some(DecodedToken(header, payload, sig, h + "." + p))
  {
    var h, p := EncodeSegment(header), EncodeSegment(payload);
    var buf := SignatureBytes(sig.r, sig.s);
    SplitSegments(Marshal(header), Marshal(payload), buf);
    SegmentRoundTrip(header);
    SegmentRoundTrip(payload);
    Base64.RoundTrip(buf);
    SignatureRoundTrip(sig.r, sig.s);
  }

  /** Three encoded segments joined by dots split back into themselves. */
  lemma SplitSegments(a: seq<byte>, b: seq<byte>, c: seq<byte>)
    ensures var parts := [Base64.Encode(a), Base64.Encode(b), Base64.Encode(c)];
      Split(Join(parts, '.'), '.') == parts && Count(Join(parts, '.'), '.') == 2
  {
    var parts := [Base64.Encode(a), Base64.Encode(b), Base64.Encode(c)];
    Base64.NoSeparators(a);
    Base64.NoSeparators(b);
    Base64.NoSeparators(c);
    SplitJoin(parts, '.');
    CountJoin(parts, '.');
  }

  /** A successfully encoded token has exactly two dots, and decoding it
      gives back the header with the given tag, the payload, and a signature
      that the signer produced with `signingKey` over the digest of the
      token's first two segments. */
  lemma TokenRoundTrip(algorithm: string, payload: Value, signingKey: PrivateKey, crypto: Crypto)
    requires SignatureFits(crypto, signingKey)
    ensures var r := EncodeToken(algorithm, payload, signingKey, crypto);
      r.Success? ==>
        && Count(r.value, '.') == 2
        && DecodeToken(r.value).Some?
        && var d := DecodeToken(r.value).value;
        && d.header == HeaderJson(WebTokenHeader(algorithm))
        && d.payload == payload
        && crypto.sign(signingKey, MessageDigest(crypto, d.signedText)) == Success(d.signature)
  {
    if EncodeToken(algorithm, payload, signingKey, crypto).Success? {
      var sig := crypto.sign(signingKey, MessageDigest(crypto, Message(algorithm, payload))).value;
      TokenShape(algorithm, payload, signingKey, crypto);
      DecodeJoined(HeaderJson(WebTokenHeader(algorithm)), payload, sig);
    }
  }

  /** An encoded token never contains the bundle separator `~`. */
  lemma TokenHasNoTilde(algorithm: string, payload: Value, signingKey: PrivateKey, crypto: Crypto)
    requires SignatureFits(crypto, signingKey)
    requires EncodeToken(algorithm, payload, signingKey, crypto).Success?
    ensures '~' !in EncodeToken(algorithm, payload, signingKey, crypto).value
  {
    var sig := crypto.sign(signingKey, MessageDigest(crypto, Message(algorithm, payload))).value;
    var h, p := EncodeSegment(HeaderJson(WebTokenHeader(algorithm))), EncodeSegment(payload);
    var e := Base64.Encode(SignatureBytes(sig.r, sig.s));
    TokenShape(algorithm, payload, signingKey, crypto);
    JoinThree(h, p, e, '.');
    Base64.NoSeparators(Marshal(HeaderJson(WebTokenHeader(algorithm))));
    Base64.NoSeparators(Marshal(payload));
    Base64.NoSeparators(SignatureBytes(sig.r, sig.s));
    AbsentFromThree(h, p, e, '.', '~');
  }

  /** A certificate from `CreateCertificate` is a single token free of `~`
      whose decoding has the tag computed from the signing key's modulus,
      the payload for `key`'s public half and `email`, and a signature made
      with `signingKey`. */
  lemma CertificateRoundTrip(key: PrivateKey, email: string, issuer: string, issuedAt: int,
                             expiresAt: int, signingKey: PrivateKey, crypto: Crypto)
    requires SignatureFits(crypto, signingKey)
    ensures var r := CreateCertificate(key, email, issuer, issuedAt, expiresAt, signingKey, crypto);
      r.Success? ==>
        && '~' !in r.value
        && DecodeToken(r.value).Some?
        && SignedToken(DecodeToken(r.value).value, HeaderJson(WebTokenHeader(CertificateAlgorithm(signingKey))),
                       CertificateJson(NewCertificatePayload(key, email, issuer, issuedAt, expiresAt)),
                       signingKey, crypto)
  {
    var payload := CertificateJson(NewCertificatePayload(key, email, issuer, issuedAt, expiresAt));
    if EncodeToken(CertificateAlgorithm(signingKey), payload, signingKey, crypto).Success? {
      TokenRoundTrip(CertificateAlgorithm(signingKey), payload, signingKey, crypto);
      TokenHasNoTilde(CertificateAlgorithm(signingKey), payload, signingKey, crypto);
    }
  }

  /** An assertion token decodes to the `"DS128"` header, its payload and a
      signature made with `signingKey`, whatever the key's modulus. */
  lemma AssertionRoundTrip(a: AssertionPayload, signingKey: PrivateKey, crypto: Crypto)
    requires SignatureFits(crypto, signingKey)
    ensures var r := EncodeAssertion(a, signingKey, crypto);
      r.Success? ==>
        && '~' !in r.value
        && DecodeToken(r.value).Some?
        && SignedToken(DecodeToken(r.value).value, HeaderJson(WebTokenHeader(AssertionAlgorithm)),
                       AssertionJson(a), signingKey, crypto)
  {
    if EncodeAssertion(a, signingKey, crypto).Success? {
      TokenRoundTrip(AssertionAlgorithm, AssertionJson(a), signingKey, crypto);
      TokenHasNoTilde(AssertionAlgorithm, AssertionJson(a), signingKey, crypto);
    }
  }

  /** Splitting a bundle whose certificate has no `~` recovers the
      certificate and the assertion token. */
  lemma BundleSplit(signingKey: PrivateKey, certificate: string, audience: string,
                    issuer: string, issuedAt: int, expiresAt: int, crypto: Crypto)
    requires SignatureFits(crypto, signingKey)
    requires '~' !in certificate
    ensures var r := CreateAssertion(signingKey, certificate, audience, issuer, issuedAt, expiresAt, crypto);
      r.Success? ==>
        var assertion :=
          EncodeAssertion(NewAssertionPayload(issuer, issuedAt, expiresAt, audience), signingKey, crypto);
        && Split(r.value, '~') == [certificate, assertion.value]
        && Count(r.value, '~') == 1
  {
    var r := CreateAssertion(signingKey, certificate, audience, issuer, issuedAt, expiresAt, crypto);
    if r.Success? {
      var payload := NewAssertionPayload(issuer, issuedAt, expiresAt, audience);
      var assertion := EncodeAssertion(payload, signingKey, crypto).value;
      TokenHasNoTilde(AssertionAlgorithm, AssertionJson(payload), signingKey, crypto);
      assert r.value == certificate + "~" + assertion;
      SplitTwo(certificate, assertion, '~');
    }
  }

  /** Splits a bundle on `~` into exactly two tokens, a certificate and an
      assertion, and decodes both. */
  function DecodeBundle(bundle: string): Option<(DecodedToken, DecodedToken)> {
    var parts := Split(bundle, '~');
    if |parts| != 2 then None else
      match (DecodeToken(parts[0]), DecodeToken(parts[1]))
      case (Some(c), Some(a)) => Some((c, a))
      case _ => None
  }

  /** Decoding a bundle made around a decodable certificate gives the
      certificate's decoding and an assertion carrying the `"DS128"` header,
      the assertion payload, and a signature made with `signingKey` over the
      assertion's first two segments. */
  lemma BundleRoundTrip(signingKey: PrivateKey, certificate: string, audience: string,
                        issuer: string, issuedAt: int, expiresAt: int, crypto: Crypto)
    requires SignatureFits(crypto, signingKey)
    requires '~' !in certificate && DecodeToken(certificate).Some?
    ensures var r := CreateAssertion(signingKey, certificate, audience, issuer, issuedAt, expiresAt, crypto);
      r.Success? ==>
        && DecodeBundle(r.value).Some?
        && var (c, a) := DecodeBundle(r.value).value;
        && c == DecodeToken(certificate).value
        && SignedToken(a, HeaderJson(WebTokenHeader(AssertionAlgorithm)),
                       AssertionJson(NewAssertionPayload(issuer, issuedAt, expiresAt, audience)), signingKey, crypto)
  {
    var r := CreateAssertion(signingKey, certificate, audience, issuer, issuedAt, expiresAt, crypto);
    if r.Success? {
      var payload := NewAssertionPayload(issuer, issuedAt, expiresAt, audience);
      var assertion := EncodeAssertion(payload, signingKey, crypto).value;
      TokenHasNoTilde(AssertionAlgorithm, AssertionJson(payload), signingKey, crypto);
      TokenRoundTrip(AssertionAlgorithm, AssertionJson(payload), signingKey, crypto);
      assert r.value == certificate + "~" + assertion;
      DecodeTwo(certificate, assertion);
    }
  }

  lemma DecodeTwo(c: string, a: string)
    requires '~' !in c && '~' !in a
    requires DecodeToken(c).Some? && DecodeToken(a).Some?
    ensures DecodeBundle(c + "~" + a) == Some((DecodeToken(c).value, DecodeToken(a).value))
  {
    SplitTwo(c, a, '~');
  }
}

=== FILE: wrappers.dfy ===
/** Failure-carrying result types shared by the whole model. */
module Wrappers {

  /** An optional value: `None` where the source has no meaningful value. */
  datatype Option<+T> = None | Some(value: T)

  /** The outcome of an operation that returns `(value, error)` in the source:
      `Failure(e)` stands for the source returning the empty string together
      with the error `e`, `Success(v)` for returning `v` with a nil error. */
  datatype Result<+T, +E> = Success(value: T) | Failure(error: E) {

    predicate IsFailure() {
      Failure?
    }

    function PropagateFailure<U>(): Result<U, E>
      requires Failure?
    {
      Failure(error)
    }

    function Extract(): T
      requires Success?
    {
      value
    }
  }
}
